=== FILE: README.md ===
# Recursive-descent arithmetic expression parser, modelled in Dafny

This project models the core of a small C++ calculator: a **lexer**
(`Lexer::Tokenise`) and a **recursive-descent parser** (`RDParser::Parse`)
with its abstract syntax tree and evaluation. The lexer turns a string of
digits, `+ - * / ( )` and spaces into tokens. The parser reads the grammar
below into a tree, rejects leftover tokens, and evaluates the tree with
integer arithmetic:

    Expression -> Binary
    Binary     -> Unary (("+" | "-" | "*" | "/") Unary)*
    Unary      -> "-" Unary | Primary
    Primary    -> Literal | "(" Expression ")"

All four binary operators share one precedence level and fold to the left.
So `1 + 3 * 4` is `(1 + 3) * 4`.

Modules, following the program's structure:

- `Outcomes`: `Result` (a value or an error) and `Outcome` (pass or fail). Exceptions become these.
- `Errors`: the exception classes of `errors.h` as one enumeration.
- `Chars`: character classes of the two regular expressions, and base-10 reading of a digit run.
- `Tokens`: token kinds and the token record of `lexer.h`.
- `Scanner`: the lexer.
  - The two `std::regex` searches are scans over the input.
  - The token search becomes a list of spans; each span is a maximal digit run or one operator character.
  - The reference definition `WellFormedScan` says what a correct list of spans is, and `Scan` is proved to meet it.
  - `Lex` is the pure core of `Tokenise`: the error cases, then classification.
- `Joining`: how the invalid-character search composes over concatenated inputs.
- `Spelling`: the scanner's inverse.
  - An input that writes out a list of tokens, separated only by spaces, scans back to exactly those tokens.
- `Ast`: the tree (`Literal`, `Unary`, `Binary` nodes) and `Evaluate`.
  - Division truncates toward zero, as C++ `/` does.
- `RecursiveDescent`: the parser.
  - Each parse function takes the lexer and the cursor position. It returns the tree and the next position, or the error it throws.
  - `Parse` resets the instance, tokenises, parses, checks for leftover tokens and evaluates.
- `Unparse`: a printer from trees to tokens. It is the parser's partner: the tokens of a printed tree parse back to that same tree.
- `Printed`: how a parse fails when a printed tree is followed by a token that cannot continue it.
- `Scenarios`: each case of the unit tests, stated about a fresh parser and the test's input string.

## Model

| member | source | states |
|---|---|---|
| Scanner.NewLexer | ExpressionParser/src/lexer.cpp:8 | a constructed lexer holds the placeholder expression "Uninit" and `getToken` rejects every index |
| Scanner.InvalidChars | ExpressionParser/src/lexer.cpp:24-25 | the invalid-character search yields one single-character string per disallowed character, in input order, and nothing exactly when every character is a digit, an operator, a parenthesis or a space |
| Scanner.DigitRunEnd | ExpressionParser/src/lexer.h:11 | a `\d+` match starting at a digit extends over every following digit and stops at the first non-digit or at the end |
| Scanner.ScanFrom | ExpressionParser/src/lexer.cpp:111-124 | the successive matches of the token pattern from a boundary are spans of the input at or after it, in order (Scanner.ScanFromWellFormed states which spans) |
| Scanner.ScanFromWellFormed | ExpressionParser/src/lexer.cpp:31-32 | the token search from a boundary finds, left to right, exactly the maximal digit runs and single operator characters, and the gaps between them hold no token character |
| Scanner.Scan | ExpressionParser/src/lexer.cpp:31-32 | the spans the token search finds over the whole input meet the reference definition of a correct tokenisation |
| Scanner.ScanConcat | ExpressionParser/src/lexer.cpp:31-32 | the matched substrings, joined, are exactly the input's token characters in order: the search loses and invents no character |
| Scanner.Lexemes | ExpressionParser/src/lexer.cpp:31-32 | each matched substring is the input text at its span and is a digit run or one operator character; together they spell the input with the non-token characters dropped |
| Scanner.Classify | ExpressionParser/src/lexer.cpp:38-60 | a match keeps its text; it becomes a literal exactly when it starts with a digit, with the base-10 value of its digits; otherwise it is the operator or parenthesis of its one character, with the value -1 |
| Scanner.TokenCharsAreNonSpaces | ExpressionParser/src/lexer.h:11-12 | on input that passed the invalid-character check, the token characters are exactly the non-space characters |
| Scanner.ClassifyAll | ExpressionParser/src/lexer.cpp:38-60 | one token per match, in match order, each the classification of its match, so the tokens' texts are the matches |
| Scanner.NoLexemes | ExpressionParser/src/lexer.cpp:31-35 | on valid input the token search finds nothing exactly when the input is all spaces (including empty) |
| Scanner.Lex | ExpressionParser/src/lexer.cpp:19-61 | fails with InvalidToken, carrying every offending character, exactly when a disallowed character occurs; otherwise fails with EmptyExpression exactly when the input is all spaces; otherwise yields one classified token per match, at least one |
| Scanner.Tokenise | ExpressionParser/src/lexer.cpp:19-61 | the expression is recorded even when tokenising throws; on an error the token list is unchanged; on success the new tokens are appended to the existing ones |
| Scanner.GetToken | ExpressionParser/src/lexer.cpp:71-80 | an index inside the token list returns that token; any other index, negative included, throws TokenIndexOutOfRange |
| Scanner.GetTokenCount | ExpressionParser/src/lexer.cpp:87-90 | the count is the bound `getToken` checks: an index is accepted exactly when it is at least 0 and below the count, which is the guard the parser relies on before reading a token |
| Scanner.TokeniseCount | ExpressionParser/src/lexer.cpp:19-61 | tokenising raises the count by one per lexeme of the input when it succeeds, so by at least one, and leaves it unchanged when it throws |
| Scanner.ClearTokens | ExpressionParser/src/lexer.cpp:97-101 | afterwards the lexer holds no tokens and is in its freshly constructed state |
| Chars.DecimalValue | ExpressionParser/src/lexer.cpp:55 | the base-10 reading of a digit run, as `std::stoi` gives it, with the empty run reading 0; Chars.DecimalRoundTrip and Chars.LeadingZero state what it reads |
| Chars.LeadingZero | ExpressionParser/src/lexer.cpp:55 | a leading zero does not change the value read, so "012" is the literal 12 |
| Chars.DecimalString | ExpressionParser/src/lexer.cpp:55 | the reference spelling of a natural number is a non-empty digit run without a leading zero |
| Chars.DecimalRoundTrip | ExpressionParser/src/lexer.cpp:55 | reading the spelling of any natural number in base 10 gives that number back |
| Joining.InvalidCharsAppend | ExpressionParser/src/lexer.cpp:24-25 | the offending characters of a + b are those of a followed by those of b |
| Joining.InvalidTail | ExpressionParser/src/lexer.cpp:24-25 | if an input is valid up to a suffix made only of disallowed characters, the offending list is exactly that suffix, one character per entry |
| Spelling.SkipSpaces | ExpressionParser/src/lexer.h:11 | the token search skips spaces: scanning before a run of spaces finds the same as scanning after it |
| Spelling.ScanLexeme | ExpressionParser/src/lexer.h:11 | a token text written at a boundary, and not followed by a digit that would extend it, is matched as exactly one span covering it |
| Spelling.ScanSpelled | ExpressionParser/src/lexer.cpp:31-32 | for an input that writes tokens at given positions with only spaces around them, the scan after the first k tokens matches the remaining tokens' texts one for one |
| Spelling.SpelledLexemes | ExpressionParser/src/lexer.cpp:31-32 | the matches of such an input are exactly the tokens' texts |
| Spelling.SpelledAllowed | ExpressionParser/src/lexer.cpp:24-28 | an input that spells tokens with only spaces around them holds no invalid character, so the invalid-character check lets it through |
| Spelling.SpelledLex | ExpressionParser/src/lexer.cpp:19-61 | the lexer returns exactly the tokens such an input spells, whenever there is at least one |
| Ast.TruncDiv | ExpressionParser/src/rd_parser.cpp:206 | the quotient leaves a remainder smaller in magnitude than the divisor and with the dividend's sign (or zero): division truncating toward zero |
| Ast.TruncDivUnique | ExpressionParser/src/rd_parser.cpp:206 | any quotient with that remainder property is the one TruncDiv computes, so the truncating quotient is unique |
| Ast.Evaluate | ExpressionParser/src/rd_parser.cpp:187-249 | evaluation can only fail by dividing by zero, which needs a division in the tree, or by an unknown operator, which a well-formed tree never has; a well-formed tree without division always has a value |
| Ast.EvaluateFails | ExpressionParser/src/rd_parser.cpp:197-207 | a well-formed tree fails to evaluate exactly when some division node in it has a divisor that evaluates to zero, and the failure is then DivideByZero |
| Ast.Negations | ExpressionParser/src/rd_parser.cpp:227-230 | wrapping a tree in negations keeps it well formed exactly when the tree was |
| Ast.EvaluateNegations | ExpressionParser/src/rd_parser.cpp:227-230 | k negations fail exactly when the inner tree fails, with the same error; otherwise an even number keeps the value and an odd number negates it |
| RecursiveDescent.NewParser | ExpressionParser/src/rd_parser.cpp:13 | a constructed parser has its cursor at 0 and a freshly constructed lexer with no tokens |
| RecursiveDescent.MatchAndAdvance | ExpressionParser/src/rd_parser.cpp:52-61 | the cursor moves past the current token exactly when one is there and has the requested kind; otherwise it stays put |
| RecursiveDescent.MatchBinaryOperator | ExpressionParser/src/rd_parser.cpp:88-91 | the four trials together consume one token exactly when it is a binary operator |
| RecursiveDescent.ParseExpression | ExpressionParser/src/rd_parser.cpp:71-74 | a successful parse consumes at least one token and never reads past the end, and builds a well-formed tree; a failed parse throws only ParenthesesMismatch or UnexpectedToken, or the index error when there are no tokens at all |
| RecursiveDescent.ParseBinary | ExpressionParser/src/rd_parser.cpp:84-98 | as ParseExpression, for the operand-operator loop |
| RecursiveDescent.BinaryLoop | ExpressionParser/src/rd_parser.cpp:88-95 | each round of the loop keeps the tree well formed and the cursor within the tokens, moving only forward |
| RecursiveDescent.ParseUnary | ExpressionParser/src/rd_parser.cpp:108-116 | as ParseExpression, for a run of negations and its operand |
| RecursiveDescent.BadTokenIndex | ExpressionParser/src/rd_parser.cpp:155-160 | the index blamed for an unexpected token is the cursor when it is in range and the last token otherwise, so `getToken` succeeds on it whenever there is a token |
| RecursiveDescent.ParsePrimary | ExpressionParser/src/rd_parser.cpp:126-164 | a success is a literal or a parenthesised expression closed by a right parenthesis; when the current token is neither a literal nor a left parenthesis, it throws UnexpectedToken with the text of the current token, or of the last token when the cursor is past the end |
| RecursiveDescent.LiteralStep | ExpressionParser/src/rd_parser.cpp:128-132 | a literal token is read as an operand holding its value |
| RecursiveDescent.NegationStep | ExpressionParser/src/rd_parser.cpp:110-113 | a minus sign before an operand is read as the negation of that operand |
| RecursiveDescent.ParenthesesStep | ExpressionParser/src/rd_parser.cpp:134-146 | a left parenthesis, an expression and a right parenthesis are read as the inner expression itself, with no node of their own |
| RecursiveDescent.FoldStep | ExpressionParser/src/rd_parser.cpp:88-95 | an operator and the operand after it extend the tree folded so far into a binary node whose left child is that whole tree |
| RecursiveDescent.FoldStop | ExpressionParser/src/rd_parser.cpp:88-95 | at a token that is not a binary operator, or at the end, the loop returns the tree folded so far without moving |
| RecursiveDescent.ExpressionStep | ExpressionParser/src/rd_parser.cpp:71-98 | an operand followed by a sequence of folds that stops is read as one expression |
| RecursiveDescent.UnexpectedStep | ExpressionParser/src/rd_parser.cpp:148-163 | at a token that starts no operand, or at the end of a non-empty token list, reading an operand throws UnexpectedToken naming that token or, at the end, the last token |
| RecursiveDescent.MismatchStep | ExpressionParser/src/rd_parser.cpp:138-142 | a parenthesised expression not followed by a right parenthesis throws ParenthesesMismatch |
| RecursiveDescent.FoldFailure | ExpressionParser/src/rd_parser.cpp:88-95 | an operand that fails after an operator makes the whole loop fail with that operand's error |
| RecursiveDescent.OperandFailure | ExpressionParser/src/rd_parser.cpp:84-87 | an expression whose first operand fails fails with that error |
| RecursiveDescent.ExpressionFailure | ExpressionParser/src/rd_parser.cpp:84-98 | an expression whose operator loop fails fails with the loop's error |
| RecursiveDescent.FailureStep | ExpressionParser/src/rd_parser.cpp:84-98 | an expression whose operand after the nth token's operator fails fails with that operand's error |
| RecursiveDescent.Restart | ExpressionParser/src/rd_parser.cpp:21-26 | parsing restarts at cursor 0 with the tokens of the new input alone, or none when tokenising throws, whatever the instance held before |
| RecursiveDescent.ParseTokens | ExpressionParser/src/rd_parser.cpp:29-40 | an error thrown while building the tree is returned unchanged; a tree that leaves tokens unread gives UnexpectedParentheses, whatever those tokens are; a tree that reads every token gives its evaluation, value or DivideByZero; the unknown-operator error never escapes, nor does the index error when there are tokens |
| RecursiveDescent.Parse | ExpressionParser/src/rd_parser.cpp:21-41 | a tokenising error is returned as it is; otherwise the result is that of parsing the new tokens; the result is a lexer error exactly when tokenising failed; neither the unknown-operator nor the index error can ever be returned |
| RecursiveDescent.ParseForgetsState | ExpressionParser/src/rd_parser.cpp:21-26 | the result of Parse does not depend on what the instance parsed before: any instance gives what a fresh one gives |
| Unparse.LiteralTokenScans | ExpressionParser/src/lexer.cpp:38-60 | the printer's literal token is what the lexer builds from the number's decimal spelling |
| Unparse.PunctuationTokenScans | ExpressionParser/src/lexer.cpp:43-53 | the printer's operator and parenthesis tokens are what the lexer builds from their one character |
| Unparse.LeftmostOccurs | ExpressionParser/src/rd_parser.cpp:84-87 | the first operand of a printed expression is printed at the start of it, as an operand |
| Unparse.SplitBinary | ExpressionParser/src/rd_parser.cpp:88-95 | a printed binary node is its left side printed, then its operator, then its right operand printed |
| Unparse.OperandRoundTrip | ExpressionParser/src/rd_parser.cpp:108-164 | the tokens of a printed operand are read back as that same operand, ending just after it |
| Unparse.ParenthesesRoundTrip | ExpressionParser/src/rd_parser.cpp:134-146 | a binary node printed inside parentheses is read back as that node |
| Unparse.SpineRoundTrip | ExpressionParser/src/rd_parser.cpp:88-95 | the loop folds the operators and operands of a printed expression back into that expression, left-nested as printed |
| Unparse.ExpressionRoundTrip | ExpressionParser/src/rd_parser.cpp:71-98 | a printed expression followed by a token that is not a binary operator, or by the end, is read back as that expression, ending just after it |
| Unparse.ExpressionBreaksOff | ExpressionParser/src/rd_parser.cpp:84-98 | a printed expression followed by an operator whose operand fails makes the expression fail with that operand's error |
| Unparse.PrintedTokensParse | ExpressionParser/src/rd_parser.cpp:21-41 | the tokens of any printed tree parse to that tree, consume every token, and evaluate to the tree's value |
| Printed.StopsEarly | ExpressionParser/src/rd_parser.cpp:31-37 | a printed expression followed by a token that is not a binary operator throws UnexpectedParentheses |
| Printed.FailsAfter | ExpressionParser/src/rd_parser.cpp:29-37 | a printed expression followed by an operator and a failing operand returns that operand's error |
| Printed.Unclosed | ExpressionParser/src/rd_parser.cpp:134-142 | a left parenthesis followed by a printed expression and nothing else throws ParenthesesMismatch |
| Printed.ParsesAs | ExpressionParser/src/rd_parser.cpp:21-41 | an input that lexes to the tokens of a printed tree parses to that tree's value |
| Printed.LexedParse | ExpressionParser/src/rd_parser.cpp:21-41 | on an input that lexes, parsing with a fresh parser is parsing its tokens |
| Scenarios.Rescanning | ExpressionParser/src/lexer.cpp:38-60 | every literal and operator token the tests use is one the lexer builds from its own text |
| Scenarios.SimpleLexes | Tests/Tests.cpp:25-30 | "1 + 3" lexes to 1, +, 3 |
| Scenarios.BraceLexes | Tests/Tests.cpp:32-37 | "4 + (12 / (1 * 2))" lexes to its eleven tokens |
| Scenarios.NegationLexes | Tests/Tests.cpp:39-44 | "1 + 4 * -2" lexes to its six tokens |
| Scenarios.SubtractionLexes | Tests/Tests.cpp:46-51 | "1 - 5 * 2" lexes to its five tokens |
| Scenarios.PrecedenceLexes | Tests/Tests.cpp:53-58 | "1 + 3 * 4" lexes to its five tokens |
| Scenarios.ByZeroLexes | Tests/Tests.cpp:67-72 | "5 / 0" lexes to 5, /, 0 |
| Scenarios.AtEndLexes | Tests/Tests.cpp:74-79 | "5 + 6 + 4 +" lexes to its six tokens |
| Scenarios.CombinationLexes | Tests/Tests.cpp:81-86 | "5 + 6 *+ 4" lexes to six tokens, with * and + separate |
| Scenarios.LeftBraceLexes | Tests/Tests.cpp:88-93 | "(1 + (12 * 2) " lexes to its eight tokens, the trailing space dropped |
| Scenarios.RightBraceLexes | Tests/Tests.cpp:95-100 | "5 + 6) *+ 4" lexes to its seven tokens |
| Scenarios.LeftPositionLexes | Tests/Tests.cpp:102-107 | "5( + 6 *+ 4" lexes to its seven tokens |
| Scenarios.RightPositionLexes | Tests/Tests.cpp:109-114 | "5 + )6 *+ 4" lexes to its seven tokens |
| Scenarios.NegationsLexes | Tests/Tests.cpp:116-121 | "----5+---6*6" lexes to its twelve tokens, each minus sign a token of its own |
| Scenarios.SimpleTree | Tests/Tests.cpp:25-30 | the tokens of "1 + 3" print a tree whose value is 4 |
| Scenarios.BraceTree | Tests/Tests.cpp:32-37 | the tokens of "4 + (12 / (1 * 2))" print a tree whose value is 10 |
| Scenarios.NegationTree | Tests/Tests.cpp:39-44 | the tokens of "1 + 4 * -2" print (1 + 4) * -2, whose value is -10 |
| Scenarios.SubtractionTree | Tests/Tests.cpp:46-51 | the tokens of "1 - 5 * 2" print (1 - 5) * 2, whose value is -8 |
| Scenarios.PrecedenceTree | Tests/Tests.cpp:53-58 | the tokens of "1 + 3 * 4" print (1 + 3) * 4, whose value is 16 |
| Scenarios.ByZeroTree | Tests/Tests.cpp:67-72 | the tokens of "5 / 0" print a tree whose evaluation fails with DivideByZero |
| Scenarios.NegationsTree | Tests/Tests.cpp:116-121 | the tokens of "----5+---6*6" print (5 + -6) * 6, whose value is -6 |
| Scenarios.SimpleTerm | Tests/Tests.cpp:25-30 | parsing "1 + 3" returns 4 |
| Scenarios.BracePrecedes | Tests/Tests.cpp:32-37 | parsing "4 + (12 / (1 * 2))" returns 10 |
| Scenarios.NegationApplied | Tests/Tests.cpp:39-44 | parsing "1 + 4 * -2" returns -10 |
| Scenarios.SubtractionApplied | Tests/Tests.cpp:46-51 | parsing "1 - 5 * 2" returns -8 |
| Scenarios.FactorTermHasEqualPrecedence | Tests/Tests.cpp:53-58 | parsing "1 + 3 * 4" returns 16, not 13 |
| Scenarios.DivideByZeroExcepts | Tests/Tests.cpp:67-72 | parsing "5 / 0" throws DivideByZero |
| Scenarios.MultipleNegationValid | Tests/Tests.cpp:116-121 | parsing "----5+---6*6" returns -6 |
| Scenarios.AtEndPrefix | Tests/Tests.cpp:74-79 | the first five tokens of "5 + 6 + 4 +" print a complete expression |
| Scenarios.AtEndFails | Tests/Tests.cpp:74-79 | the tokens of "5 + 6 + 4 +" fail with UnexpectedToken("+"): the operand after the last + is missing, and the last token is named |
| Scenarios.CombinationFails | Tests/Tests.cpp:81-86 | the tokens of "5 + 6 *+ 4" fail with UnexpectedToken("+") |
| Scenarios.RightPositionFails | Tests/Tests.cpp:109-114 | the tokens of "5 + )6 *+ 4" fail with UnexpectedToken(")") |
| Scenarios.RightBraceStops | Tests/Tests.cpp:95-100 | the tokens of "5 + 6) *+ 4" stop at the ")" and fail with UnexpectedParentheses |
| Scenarios.LeftPositionStops | Tests/Tests.cpp:102-107 | the tokens of "5( + 6 *+ 4" stop at the "(" and fail with UnexpectedParentheses |
| Scenarios.UnexpectedTokenAtEndExcepts | Tests/Tests.cpp:74-79 | parsing "5 + 6 + 4 +" throws UnexpectedToken naming "+" |
| Scenarios.InvalidTokenCombinationExcepts | Tests/Tests.cpp:81-86 | parsing "5 + 6 *+ 4" throws UnexpectedToken naming "+" |
| Scenarios.UnmatchedLeftBraceExcepts | Tests/Tests.cpp:88-93 | parsing "(1 + (12 * 2) " throws ParenthesesMismatch |
| Scenarios.UnmatchedRightBraceExcepts | Tests/Tests.cpp:95-100 | parsing "5 + 6) *+ 4" throws UnexpectedParentheses |
| Scenarios.IncorrectLeftBracePositionExcepts | Tests/Tests.cpp:102-107 | parsing "5( + 6 *+ 4" throws UnexpectedParentheses |
| Scenarios.IncorrectRightBracePositionExcepts | Tests/Tests.cpp:109-114 | parsing "5 + )6 *+ 4" throws UnexpectedToken naming ")" |
| Scenarios.TrailingWordLexes | ExpressionParser/src/lexer.cpp:24-28 | an input that is valid up to a trailing "test" fails to lex with InvalidToken listing "t", "e", "s", "t" |
| Scenarios.InvalidExpressionLexerExcept | Tests/Tests.cpp:18-23 | parsing "1 + 3 + test" throws InvalidToken listing the four letters of "test" |

## Left out

- `main.cpp` (reading a line from the console and printing the result or the error message) is I/O and is not modelled.
- Scanner.InvalidChars: the input is a sequence of characters, where `std::regex` over a `std::string` sees bytes. For ASCII input the two agree. A character outside ASCII, such as "é", is one entry of the InvalidToken list here but one entry per byte of its UTF-8 encoding in the program. Modelling the input as bytes would change every string in the model for inputs the program does not accept anyway.
- The `std::regex` engine is not modelled. The two patterns of `lexer.h` are written out as explicit character-class scans. `\d` is read as the ASCII digits.
- Error message texts are not modelled: the "Lexer:: " and "RDParser:: " prefixes and the comma-joined list in `InvalidTokenException`. An error carries only its kind and its payload.
- Whitespace: the invalid-character pattern (lexer.h:12) allows only the space character, so a tab or newline is an invalid character and is reported in InvalidToken.
- Scanner.Classify: the value of a digit run is its unbounded base-10 value. `std::stoi` would throw `std::out_of_range` for runs above 2^31 - 1; that exception is not modelled.
- Ast.Evaluate: it uses unbounded integers. C++ `int` overflow in `+ - *`, negation and `INT_MIN / -1` is undefined behaviour and is not modelled.
- Ast.Evaluate: the left operand of `+ - *` is evaluated first. C++ leaves that order unspecified. On a tree the parser builds (one that is WellFormed), the only error is DivideByZero (Ast.EvaluateFails), so the order never changes the result. For `/` the code's order is kept: the right operand first, and the zero check before the left operand is evaluated.
- RecursiveDescent.Parse: it returns only the result. The cursor and token list left in the instance after a throw are not returned. The next `Parse` resets both (ParseForgetsState).
- RecursiveDescent.ParseTokens: `getToken(-1)` gives TokenIndexOutOfRange only on an empty token list. ParseTokens rules that error out for non-empty lists, and Parse never reaches it, because a successful Tokenise yields at least one token.
- `unique_ptr` ownership and virtual dispatch of `Expression::Evaluate` are not modelled. The tree is an immutable datatype and dispatch is a `match`.
- The CppUnit test framework is not modelled. Each test method is a lemma about the parser's result on that test's input string.
- The Division test (Tests/Tests.cpp:60-65) parses the same string as BracePrecedes, so Scenarios.BracePrecedes covers it.

=== FILE: ast.dfy ===
/**
 * The abstract syntax tree of rd_parser.h:33-85 and its evaluation
 * (rd_parser.cpp:187-249). The three node classes become one inductive
 * datatype; virtual `Evaluate` becomes one function over it.
 */
module Ast {
  import opened Outcomes
  import opened Errors
  import opened Tokens

  datatype Expr =
    | LiteralNode(value: int)
    /** Negation of its operand (the `Unary` class). */
    | UnaryNode(operand: Expr)
    /** The operation is the tag of the token that introduced the node. */
    | BinaryNode(op: TokenOperation, left: Expr, right: Expr)

  /** Every binary node carries one of the four binary operators. */
  predicate WellFormed(e: Expr) {
    match e
    case LiteralNode(_) => true
    case UnaryNode(x) => WellFormed(x)
    case BinaryNode(op, l, r) => IsBinaryOperator(op) && WellFormed(l) && WellFormed(r)
  }

  /** Every literal of the tree is non-negative, as literals read from digit runs are. */
  predicate NonNegativeLiterals(e: Expr) {
    match e
    case LiteralNode(v) => v >= 0
    case UnaryNode(x) => NonNegativeLiterals(x)
    case BinaryNode(_, l, r) => NonNegativeLiterals(l) && NonNegativeLiterals(r)
  }

  /** True when some division node of the tree exists. */
  predicate HasDivision(e: Expr) {
    match e
    case LiteralNode(_) => false
    case UnaryNode(x) => HasDivision(x)
    case BinaryNode(op, l, r) => op == Division || HasDivision(l) || HasDivision(r)
  }

  function Abs(x: int): nat {
    if x < 0 then -x else x
  }

  /**
   * Native integer division: the quotient truncated toward zero. Dafny's
   * own `/` is Euclidean, so it is only applied to magnitudes here.
   */
  function TruncDiv(a: int, b: int): (q: int)
    requires b != 0
    ensures Abs(a - q * b) < Abs(b)
    ensures a - q * b == 0 || (a - q * b < 0 <==> a < 0)
  {
    var m := Abs(a) / Abs(b);
    var q := if (a < 0) == (b < 0) then m else -m;
    TruncRemainder(a, b, q);
    q
  }

  /** The remainder left by the truncated quotient is the magnitude remainder, with the dividend's sign. */
  lemma TruncRemainder(a: int, b: int, q: int)
    requires b != 0 && q == (if (a < 0) == (b < 0) then Abs(a) / Abs(b) else -(Abs(a) / Abs(b)))
    ensures a - q * b == (if a < 0 then -(Abs(a) % Abs(b)) else Abs(a) % Abs(b))
  {
    var m := Abs(a) / Abs(b);
    var rem := Abs(a) % Abs(b);
    assert Abs(a) == m * Abs(b) + rem;
    if (a < 0) == (b < 0) {
      assert a - m * b == (if a < 0 then -rem else rem);
    } else {
      assert a - (-m) * b == (if a < 0 then -rem else rem);
    }
  }

  lemma AbsProduct(k: int, b: int)
    ensures Abs(k * b) == Abs(k) * Abs(b)
  {
    if k < 0 && b < 0 {
      assert k * b == (-k) * (-b);
    } else if k < 0 {
      assert -(k * b) == (-k) * b;
    } else if b < 0 {
      assert -(k * b) == k * (-b);
    }
  }

  /** A non-zero multiple of `b` is at least as large as `b` in magnitude. */
  lemma MultipleAtLeast(k: int, b: int)
    requires k != 0
    ensures Abs(k * b) >= Abs(b)
  {
    AbsProduct(k, b);
    var m: nat := Abs(k) - 1;
    var n: nat := Abs(b);
    assert Abs(k) * n == n + m * n;
  }

  /** The two properties of TruncDiv's contract determine the quotient. */
  lemma TruncDivUnique(a: int, b: int, q: int)
    requires b != 0
    requires Abs(a - q * b) < Abs(b)
    requires a - q * b == 0 || (a - q * b < 0 <==> a < 0)
    ensures q == TruncDiv(a, b)
  {
    var t := TruncDiv(a, b);
    var r1 := a - q * b;
    var r2 := a - t * b;
    assert Abs(r2 - r1) < Abs(b);
    if q != t {
      assert r2 - r1 == (q - t) * b;
      MultipleAtLeast(q - t, b);
    }
  }

  /**
   * Post-order evaluation. `+ - *` evaluate the left operand first;
   * division evaluates the divisor first and fails on zero before the
   * dividend is looked at; any other tag is the defensive unknown-operator
   * failure.
   */
  function Evaluate(e: Expr): (r: Result<int, Error>)
    ensures r.Err? ==> r.error == DivideByZero || r.error == UnknownOperator
    ensures r.Err? && r.error == DivideByZero ==> HasDivision(e)
    ensures WellFormed(e) ==> r != Err(UnknownOperator)
    ensures WellFormed(e) && !HasDivision(e) ==> r.Ok?
  {
    match e
    case LiteralNode(v) => Ok(v)
    case UnaryNode(x) =>
      var v :- Evaluate(x);
      Ok(-v)
    case BinaryNode(op, l, r) =>
      if op == Addition then
        var a :- Evaluate(l);
        var b :- Evaluate(r);
        Ok(a + b)
      else if op == Subtraction then
        var a :- Evaluate(l);
        var b :- Evaluate(r);
        Ok(a - b)
      else if op == Multiplication then
        var a :- Evaluate(l);
        var b :- Evaluate(r);
        Ok(a * b)
      else if op == Division then
        var b :- Evaluate(r);
        if b == 0 then Err(DivideByZero)
        else
          var a :- Evaluate(l);
          Ok(TruncDiv(a, b))
      else Err(UnknownOperator)
  }

  /** Some division node of the tree has a divisor that evaluates to zero. */
  predicate ZeroDivisor(e: Expr) {
    match e
    case LiteralNode(_) => false
    case UnaryNode(x) => ZeroDivisor(x)
    case BinaryNode(op, l, r) => ZeroDivisor(l) || ZeroDivisor(r) || (op == Division && Evaluate(r) == Ok(0))
  }

  /**
   * A well-formed tree fails to evaluate exactly when one of its divisors
   * is zero, and the failure is then DivideByZero.
   */
  lemma {:induction false} EvaluateFails(e: Expr)
    requires WellFormed(e)
    ensures Evaluate(e).Err? <==> ZeroDivisor(e)
    ensures Evaluate(e).Err? ==> Evaluate(e).error == DivideByZero
  {
    match e
    case LiteralNode(_) =>
    case UnaryNode(x) =>
      EvaluateFails(x);
    case BinaryNode(op, l, r) =>
      EvaluateFails(l);
      EvaluateFails(r);
  }

  /** `k` negations wrapped around `e`. */
  function Negations(k: nat, e: Expr): (r: Expr)
    ensures WellFormed(r) <==> WellFormed(e)
  {
    if k == 0 then e else UnaryNode(Negations(k - 1, e))
  }

  /** An even number of negations cancels; an odd number negates once. */
  lemma {:induction false} EvaluateNegations(k: nat, e: Expr)
    ensures Evaluate(Negations(k, e)).Ok? <==> Evaluate(e).Ok?
    ensures Evaluate(e).Ok? ==>
      Evaluate(Negations(k, e)).value == (if k % 2 == 0 then Evaluate(e).value else -Evaluate(e).value)
    ensures Evaluate(e).Err? ==> Evaluate(Negations(k, e)) == Evaluate(e)
  {
    if k > 0 {
      EvaluateNegations(k - 1, e);
    }
  }
}

=== FILE: chars.dfy ===
/**
 * Character classes of the scanner and the base-10 reading of a digit run.
 * The two regular expressions of lexer.h are replaced by these classes: a
 * token is a maximal run of digits or one of the six operator characters,
 * and the only other character allowed in an expression is the space.
 */
module Chars {

  predicate IsDigit(c: char) {
    '0' <= c <= '9'
  }

  /** The single-character lexemes `+ - * / ( )`. */
  predicate IsOperatorChar(c: char) {
    c == '+' || c == '-' || c == '*' || c == '/' || c == '(' || c == ')'
  }

  /** Characters that belong to some lexeme. */
  predicate IsTokenChar(c: char) {
    IsDigit(c) || IsOperatorChar(c)
  }

  /** The complement of the invalid-character class: token characters and the space (no tab, no newline). */
  predicate IsAllowedChar(c: char) {
    IsTokenChar(c) || c == ' '
  }

  predicate IsInvalidChar(c: char) {
    !IsAllowedChar(c)
  }

  predicate AllDigits(s: string) {
    forall i :: 0 <= i < |s| ==> IsDigit(s[i])
  }

  /** The characters of `s` that satisfy `p`, in order. */
  function Keep(s: string, p: char -> bool): (r: string)
    ensures |r| <= |s|
    ensures forall i :: 0 <= i < |r| ==> p(r[i])
  {
    if s == [] then []
    else if p(s[0]) then [s[0]] + Keep(s[1..], p)
    else Keep(s[1..], p)
  }

  lemma {:induction false} KeepAppend(a: string, b: string, p: char -> bool)
    ensures Keep(a + b, p) == Keep(a, p) + Keep(b, p)
  {
    if a == [] {
      assert a + b == b;
    } else {
      assert (a + b)[1..] == a[1..] + b;
      KeepAppend(a[1..], b, p);
    }
  }

  /** Keeping from a string every character of which passes the test gives it back. */
  lemma {:induction false} KeepAll(s: string, p: char -> bool)
    requires forall i :: 0 <= i < |s| ==> p(s[i])
    ensures Keep(s, p) == s
  {
    if s != [] {
      KeepAll(s[1..], p);
    }
  }

  /** Keep is empty exactly when no character passes the test. */
  lemma {:induction false} KeepEmpty(s: string, p: char -> bool)
    ensures Keep(s, p) == [] <==> forall i :: 0 <= i < |s| ==> !p(s[i])
  {
    if s != [] {
      KeepEmpty(s[1..], p);
      if Keep(s[1..], p) != [] {
        var i :| 0 <= i < |s[1..]| && p(s[1..][i]);
        assert p(s[i + 1]);
      }
    }
  }

  function DigitValue(c: char): (d: nat)
    requires IsDigit(c)
    ensures d < 10
  {
    c as int - '0' as int
  }

  function DigitChar(d: nat): (c: char)
    requires d < 10
    ensures IsDigit(c) && DigitValue(c) == d
  {
    ('0' as int + d) as char
  }

  /** The base-10 reading of a digit run, most significant digit first, as std::stoi reads it. */
  function DecimalValue(ds: string): (n: nat)
    requires AllDigits(ds)
    ensures ds == [] ==> n == 0
  {
    if ds == [] then 0
    else 10 * DecimalValue(ds[..|ds| - 1]) + DigitValue(ds[|ds| - 1])
  }

  /** A leading zero does not change the value read: "012" reads as 12. */
  lemma {:induction false} LeadingZero(ds: string)
    requires AllDigits(ds)
    ensures AllDigits("0" + ds) && DecimalValue("0" + ds) == DecimalValue(ds)
  {
    if ds != [] {
      var init := ds[..|ds| - 1];
      assert ("0" + ds)[..|ds|] == "0" + init;
      LeadingZero(init);
    }
  }

  /** The shortest decimal spelling of `n`: the reference inverse of DecimalValue. */
  function DecimalString(n: nat): (s: string)
    ensures 1 <= |s| && AllDigits(s)
    ensures |s| > 1 ==> s[0] != '0'
  {
    if n < 10 then [DigitChar(n)]
    else DecimalString(n / 10) + [DigitChar(n % 10)]
  }

  lemma {:induction false} DecimalRoundTrip(n: nat)
    ensures DecimalValue(DecimalString(n)) == n
  {
    var s := DecimalString(n);
    if n >= 10 {
      DecimalRoundTrip(n / 10);
      assert s[..|s| - 1] == DecimalString(n / 10);
    }
  }
}

=== FILE: errors.dfy ===
/**
 * The error taxonomy of the expression parser. The C++ code has two exception
 * families (lexer and parser); here they are one enumeration with a family
 * discriminant, each kind carrying only its contextual payload.
 */
module Errors {

  datatype Error =
    /** Every offending character, one single-character string each, left to right. */
    | InvalidToken(offending: seq<string>)
    | EmptyExpression
    | TokenIndexOutOfRange
    | ParenthesesMismatch
    | UnexpectedParentheses
    /** The raw text of the token the parser could not use as an operand. */
    | UnexpectedToken(raw: string)
    | DivideByZero
    | UnknownOperator
  {
    /** True for the kinds the lexer raises. */
    predicate FromLexer() {
      InvalidToken? || EmptyExpression? || TokenIndexOutOfRange?
    }
  }
}

=== FILE: joining.dfy ===
/**
 * The invalid-character search composes over joined inputs: the offending
 * characters of a join are those of its parts, in order. An input that is
 * valid up to some point and invalid from there on therefore reports
 * exactly its tail.
 */
module Joining {
  import opened Chars
  import opened Scanner

  /** `b` is the part of `s` from index `d` on. */
  predicate SuffixAt(s: string, d: nat, b: string) {
    d + |b| == |s| && forall i :: 0 <= i < |b| ==> s[d + i] == b[i]
  }

  /** The invalid characters of a join are those of its parts, in order. */
  lemma InvalidCharsAppend(a: string, b: string)
    ensures InvalidChars(a + b) == InvalidChars(a) + InvalidChars(b)
  {
    KeepAppend(a, b, IsInvalidChar);
  }

  /** An input that is valid up to `d` and invalid from there on reports exactly the characters after `d`, one entry each. */
  lemma InvalidTail(s: string, d: nat, b: string)
    requires SuffixAt(s, d, b)
    requires forall i :: 0 <= i < d ==> IsAllowedChar(s[i])
    requires forall i :: 0 <= i < |b| ==> IsInvalidChar(b[i])
    ensures |InvalidChars(s)| == |b| && forall k :: 0 <= k < |b| ==> InvalidChars(s)[k] == [b[k]]
  {
    var a, c := s[..d], s[d..];
    assert s == a + c;
    assert c == b;
    InvalidCharsAppend(a, c);
    KeepAll(c, IsInvalidChar);
  }
}

=== FILE: outcomes.dfy ===
/** Failure-compatible result types used to model the C++ exceptions as values. */
module Outcomes {

  /** A value or an error; usable with `:-`. */
  datatype Result<+T, +E> = Ok(value: T) | Err(error: E) {

    predicate IsFailure() {
      Err?
    }

    function PropagateFailure<U>(): Result<U, E>
      requires Err?
    {
      Err(error)
    }

    function Extract(): T
      requires Ok?
    {
      value
    }
  }

  /** Success without a value, or an error: the outcome of a `void` operation that may throw. */
  datatype Outcome<+E> = Pass | Fail(error: E)
}

=== FILE: parser.dfy ===
/**
 * The recursive-descent parser of rd_parser.cpp. The parser object's mutable
 * cursor is threaded explicitly: every parse function takes the lexer and
 * the cursor and returns the tree built together with the cursor after it.
 *
 *   Expression -> Binary
 *   Binary     -> Unary ( ("+" | "-" | "*" | "/") Unary )*
 *   Unary      -> "-" Unary | Primary
 *   Primary    -> Literal | "(" Expression ")"
 */
module RecursiveDescent {
  import opened Outcomes
  import opened Errors
  import opened Tokens
  import opened Scanner
  import opened Ast

  /** The state of an `RDParser` instance: its lexer and its token cursor. */
  datatype RDParser = RDParser(lexer: Lexer, cursor: nat)

  /** A freshly constructed parser (rd_parser.cpp:13): its cursor is at the start and its lexer holds no token. */
  function NewParser(): (p: RDParser)
    ensures p.cursor == 0 && GetTokenCount(p.lexer) == 0
    ensures p.lexer.expression == Uninitialised
  {
    RDParser(NewLexer(), 0)
  }

  /**
   * What a parse function returns: the tree built and the cursor after it,
   * or the exception it throws. `:-` propagates the exception, as C++
   * unwinds through the recursive calls.
   */
  datatype Parsed = Built(tree: Expr, next: nat) | Thrown(error: Error) {
    predicate IsFailure() {
      Thrown?
    }

    function PropagateFailure(): Parsed
      requires Thrown?
    {
      this
    }

    function Extract(): Parsed
      requires Built?
    {
      this
    }
  }

  /** What `tokenMatchAndAdvance` reports: whether the token matched, and the cursor after the attempt. */
  datatype Attempt = Attempt(matched: bool, next: nat)

  /**
   * `tokenMatchAndAdvance`, the one primitive that consumes tokens: it
   * answers whether the token at the cursor carries `op`, and the new cursor.
   */
  function MatchAndAdvance(lx: Lexer, pos: nat, op: TokenOperation): (r: Attempt)
    ensures r.matched <==> pos < |lx.tokens| && lx.tokens[pos].operation == op
    ensures r.matched ==> r.next == pos + 1
    ensures !r.matched ==> r.next == pos
  {
    if pos < GetTokenCount(lx) && lx.tokens[pos].operation == op then Attempt(true, pos + 1)
    else Attempt(false, pos)
  }

  /** The loop condition of `parseBinary`: the four operators tried in turn, stopping at the first match. */
  function MatchBinaryOperator(lx: Lexer, pos: nat): (r: Attempt)
    ensures r.matched <==> pos < |lx.tokens| && IsBinaryOperator(lx.tokens[pos].operation)
    ensures r.matched ==> r.next == pos + 1
    ensures !r.matched ==> r.next == pos
  {
    var add := MatchAndAdvance(lx, pos, Addition);
    if add.matched then add
    else
      var sub := MatchAndAdvance(lx, add.next, Subtraction);
      if sub.matched then sub
      else
        var mul := MatchAndAdvance(lx, sub.next, Multiplication);
        if mul.matched then mul
        else MatchAndAdvance(lx, mul.next, Division)
  }

  /**
   * The failures a parse function can produce; TokenIndexOutOfRange only
   * for an empty token sequence. ParsePrimary says which token an
   * UnexpectedToken names.
   */
  predicate ParseFailure(lx: Lexer, e: Error) {
    || e == ParenthesesMismatch
    || e.UnexpectedToken?
    || (e == TokenIndexOutOfRange && |lx.tokens| == 0)
  }

  /** What every parse function promises: a well-formed tree after consuming at least one token, or a parse failure. */
  predicate Advances(lx: Lexer, pos: nat, r: Parsed) {
    && (r.Built? ==> pos < r.next <= |lx.tokens| && WellFormed(r.tree))
    && (r.Thrown? ==> ParseFailure(lx, r.error))
  }

  /** `parseExpression`: Expression -> Binary. */
  function ParseExpression(lx: Lexer, pos: nat): (r: Parsed)
    requires pos <= |lx.tokens|
    ensures Advances(lx, pos, r)
    decreases |lx.tokens| - pos, 3
  {
    ParseBinary(lx, pos)
  }

  /** `parseBinary`: one operand, then the left fold of the loop. */
  function ParseBinary(lx: Lexer, pos: nat): (r: Parsed)
    requires pos <= |lx.tokens|
    ensures Advances(lx, pos, r)
    decreases |lx.tokens| - pos, 2
  {
    var first :- ParseUnary(lx, pos);
    BinaryLoop(lx, first.tree, first.next)
  }

  /**
   * The `while` loop of `parseBinary`: while the next token is a binary
   * operator, consume it and an operand, and make the tree built so far the
   * left child of a new node tagged with that operator.
   */
  function BinaryLoop(lx: Lexer, left: Expr, pos: nat): (r: Parsed)
    requires pos <= |lx.tokens| && WellFormed(left)
    ensures r.Built? ==> pos <= r.next <= |lx.tokens| && WellFormed(r.tree)
    ensures r.Thrown? ==> ParseFailure(lx, r.error)
    decreases |lx.tokens| - pos, 0
  {
    var m := MatchBinaryOperator(lx, pos);
    if !m.matched then Built(left, pos)
    else
      var previous := lx.tokens[m.next - 1];
      var right :- ParseUnary(lx, m.next);
      BinaryLoop(lx, BinaryNode(previous.operation, left, right.tree), right.next)
  }

  /** `parseUnary`: each leading `-` wraps one negation around the operand after it. */
  function ParseUnary(lx: Lexer, pos: nat): (r: Parsed)
    requires pos <= |lx.tokens|
    ensures Advances(lx, pos, r)
    decreases |lx.tokens| - pos, 1
  {
    var minus := MatchAndAdvance(lx, pos, Subtraction);
    if minus.matched then
      var operand :- ParseUnary(lx, minus.next);
      Built(UnaryNode(operand.tree), operand.next)
    else ParsePrimary(lx, pos)
  }

  /** The token `parsePrimary` blames: the one at the cursor, clamped to the last token. */
  function BadTokenIndex(lx: Lexer, pos: nat): (i: int)
    ensures 0 < GetTokenCount(lx) ==> GetToken(lx, i).Ok?
    ensures pos < GetTokenCount(lx) ==> i == pos
    ensures GetTokenCount(lx) <= pos ==> i == GetTokenCount(lx) - 1
  {
    var last := GetTokenCount(lx) - 1;
    if pos > last then last else pos
  }

  /**
   * `parsePrimary`: a literal, or a parenthesised expression whose closing
   * parenthesis must follow; anything else is an unexpected token.
   */
  function ParsePrimary(lx: Lexer, pos: nat): (r: Parsed)
    requires pos <= |lx.tokens|
    ensures Advances(lx, pos, r)
    ensures r.Built? ==> r.tree.LiteralNode? || (lx.tokens[pos].operation == LeftParen && lx.tokens[r.next - 1].operation == RightParen)
    ensures (pos == |lx.tokens| || lx.tokens[pos].operation !in {Literal, LeftParen}) ==>
      r == Thrown(if |lx.tokens| == 0 then TokenIndexOutOfRange else UnexpectedToken(lx.tokens[if pos < |lx.tokens| then pos else |lx.tokens| - 1].raw))
    decreases |lx.tokens| - pos, 0
  {
    var literal := MatchAndAdvance(lx, pos, Literal);
    if literal.matched then
      Built(LiteralNode(lx.tokens[literal.next - 1].value), literal.next)
    else
      var open := MatchAndAdvance(lx, pos, LeftParen);
      if open.matched then
        var inner :- ParseExpression(lx, open.next);
        var close := MatchAndAdvance(lx, inner.next, RightParen);
        if !close.matched then Thrown(ParenthesesMismatch)
        else Built(inner.tree, close.next)
      else
        var bad := GetToken(lx, BadTokenIndex(lx, pos));
        if bad.Err? then Thrown(bad.error) else Thrown(UnexpectedToken(bad.value.raw))
  }

  // ---------------------------------------------------------------------
  // One step of each production, stated through what the parse functions
  // read from a position

  /** `parseUnary` at `pos` builds `x` and leaves the cursor at `q`. */
  predicate ReadsOperand(lx: Lexer, pos: nat, x: Expr, q: nat) {
    pos <= |lx.tokens| && ParseUnary(lx, pos) == Built(x, q)
  }

  /** `parseExpression` at `pos` builds `x` and leaves the cursor at `q`. */
  predicate ReadsExpression(lx: Lexer, pos: nat, x: Expr, q: nat) {
    pos <= |lx.tokens| && ParseExpression(lx, pos) == Built(x, q)
  }

  /** Running the binary loop from `a` at `p` and from `b` at `q` ends the same way. */
  predicate FoldsAlike(lx: Lexer, a: Expr, p: nat, b: Expr, q: nat) {
    && p <= |lx.tokens| && q <= |lx.tokens| && WellFormed(a) && WellFormed(b)
    && BinaryLoop(lx, a, p) == BinaryLoop(lx, b, q)
  }

  /** The binary loop has nothing more to fold at `pos`: the tokens end there or hold no binary operator. */
  predicate StopsAt(lx: Lexer, pos: nat) {
    pos <= |lx.tokens| && (pos == |lx.tokens| || !IsBinaryOperator(lx.tokens[pos].operation))
  }

  /** A literal token in operand position becomes a literal node holding its value. */
  lemma LiteralStep(lx: Lexer, pos: nat)
    requires pos < |lx.tokens| && lx.tokens[pos].operation == Literal
    ensures ReadsOperand(lx, pos, LiteralNode(lx.tokens[pos].value), pos + 1)
  {
  }

  /** A `-` in operand position wraps exactly one negation around the operand after it. */
  lemma NegationStep(lx: Lexer, pos: nat, x: Expr, q: nat)
    requires pos < |lx.tokens| && lx.tokens[pos].operation == Subtraction
    requires ReadsOperand(lx, pos + 1, x, q)
    ensures ReadsOperand(lx, pos, UnaryNode(x), q)
  {
  }

  /** A parenthesised expression in operand position is the inner tree itself, with no node for the parentheses. */
  lemma ParenthesesStep(lx: Lexer, pos: nat, x: Expr, q: nat)
    requires pos < |lx.tokens| && lx.tokens[pos].operation == LeftParen
    requires ReadsExpression(lx, pos + 1, x, q)
    requires q < |lx.tokens| && lx.tokens[q].operation == RightParen
    ensures ReadsOperand(lx, pos, x, q + 1)
  {
    assert ParsePrimary(lx, pos) == Built(x, q + 1);
  }

  /** Before any turn of the loop, the loop folds like itself. */
  lemma FoldStart(lx: Lexer, first: Expr, p0: nat)
    requires p0 <= |lx.tokens| && WellFormed(first)
    ensures FoldsAlike(lx, first, p0, first, p0)
  {
  }

  /**
   * One turn of the binary loop: when the loop from `first` reaches the
   * left child of `e` at `pos`, where the operator of `e` and its right
   * operand follow, it reaches `e` itself after that operand.
   */
  lemma FoldStep(lx: Lexer, first: Expr, p0: nat, e: Expr, pos: nat, q: nat)
    requires e.BinaryNode? && WellFormed(e)
    requires pos < |lx.tokens| && lx.tokens[pos].operation == e.op
    requires FoldsAlike(lx, first, p0, e.left, pos)
    requires ReadsOperand(lx, pos + 1, e.right, q)
    ensures FoldsAlike(lx, first, p0, e, q)
  {
    assert BinaryLoop(lx, e.left, pos) == BinaryLoop(lx, e, q);
  }

  /** The binary loop stops, consuming nothing, at the end or at any token that is not a binary operator. */
  lemma FoldStop(lx: Lexer, left: Expr, pos: nat)
    requires StopsAt(lx, pos) && WellFormed(left)
    ensures BinaryLoop(lx, left, pos) == Built(left, pos)
  {
  }

  /**
   * An expression is its first operand folded by the loop: when the loop
   * from that operand reaches `e` where it must stop, the expression is `e`.
   */
  lemma ExpressionStep(lx: Lexer, pos: nat, first: Expr, p0: nat, e: Expr, end: nat)
    requires ReadsOperand(lx, pos, first, p0) && FoldsAlike(lx, first, p0, e, end)
    requires StopsAt(lx, end)
    ensures ReadsExpression(lx, pos, e, end)
  {
    FoldStop(lx, e, end);
  }

  // The failure steps: an exception raised while parsing an operand
  // unwinds every production above it unchanged

  /** At the end of the tokens, or at a token that cannot start an operand, the operand fails on the token at the cursor, clamped to the last one. */
  lemma UnexpectedStep(lx: Lexer, pos: nat)
    requires 0 < |lx.tokens| && pos <= |lx.tokens|
    requires pos == |lx.tokens| || lx.tokens[pos].operation !in {Literal, LeftParen, Subtraction}
    ensures ParseUnary(lx, pos) == Thrown(UnexpectedToken(lx.tokens[if pos < |lx.tokens| then pos else |lx.tokens| - 1].raw))
  {
  }

  /** A parenthesised expression not followed by `)` fails with a parentheses mismatch. */
  lemma MismatchStep(lx: Lexer, pos: nat, x: Expr, q: nat)
    requires pos < |lx.tokens| && lx.tokens[pos].operation == LeftParen
    requires ReadsExpression(lx, pos + 1, x, q)
    requires q == |lx.tokens| || lx.tokens[q].operation != RightParen
    ensures ParseUnary(lx, pos) == Thrown(ParenthesesMismatch)
  {
    assert ParsePrimary(lx, pos) == Thrown(ParenthesesMismatch);
  }

  /** When the loop reaches `e` at an operator whose right operand fails, the loop fails the same way. */
  lemma FoldFailure(lx: Lexer, first: Expr, p0: nat, e: Expr, pos: nat)
    requires pos < |lx.tokens| && IsBinaryOperator(lx.tokens[pos].operation)
    requires FoldsAlike(lx, first, p0, e, pos)
    requires ParseUnary(lx, pos + 1).Thrown?
    ensures BinaryLoop(lx, first, p0) == ParseUnary(lx, pos + 1)
  {
    assert BinaryLoop(lx, e, pos) == ParseUnary(lx, pos + 1);
  }

  /** An expression whose first operand fails, fails the same way. */
  lemma OperandFailure(lx: Lexer, pos: nat)
    requires pos <= |lx.tokens| && ParseUnary(lx, pos).Thrown?
    ensures ParseExpression(lx, pos) == ParseUnary(lx, pos)
  {
  }

  /** An expression whose loop fails after its first operand, fails the same way. */
  lemma ExpressionFailure(lx: Lexer, pos: nat, first: Expr, p0: nat)
    requires ReadsOperand(lx, pos, first, p0) && WellFormed(first) && p0 <= |lx.tokens|
    requires BinaryLoop(lx, first, p0).Thrown?
    ensures ParseExpression(lx, pos) == BinaryLoop(lx, first, p0)
  {
  }

  /** The loop breaks off at `n`: an operator whose right operand throws. */
  predicate BreaksOff(lx: Lexer, n: nat) {
    n < |lx.tokens| && IsBinaryOperator(lx.tokens[n].operation) && ParseUnary(lx, n + 1).Thrown?
  }

  /** When the loop from the first operand reaches `e` where it breaks off, the expression throws what the failed operand threw. */
  lemma FailureStep(lx: Lexer, pos: nat, first: Expr, p0: nat, e: Expr, n: nat)
    requires ReadsOperand(lx, pos, first, p0) && FoldsAlike(lx, first, p0, e, n)
    requires BreaksOff(lx, n)
    ensures ParseExpression(lx, pos) == ParseUnary(lx, n + 1)
  {
    FoldFailure(lx, first, p0, e, n);
    ExpressionFailure(lx, pos, first, p0);
  }

  /**
   * The first steps of `Parse`: reset the cursor, clear the lexer and
   * tokenise the expression. Nothing of the previous state survives.
   */
  function Restart(p: RDParser, expr: string): (r: (RDParser, Outcome<Error>))
    ensures r.0.cursor == 0 && r.0.lexer.expression == expr
    ensures r.1.Fail? <==> Lex(expr).Err?
    ensures r.1.Fail? ==> r.0.lexer.tokens == [] && r.1.error == Lex(expr).error
    ensures r.1.Pass? ==> r.0.lexer.tokens == Lex(expr).value
  {
    var (lexer, status) := Tokenise(ClearTokens(p.lexer), expr);
    (RDParser(lexer, 0), status)
  }

  /**
   * The rest of `Parse` once the tokens are in place: build the tree from
   * the first token, reject tokens left over at the top level, and evaluate.
   */
  function ParseTokens(lx: Lexer): (r: Result<int, Error>)
    ensures r.Ok? ==>
      ParseExpression(lx, 0).Built? && ParseExpression(lx, 0).next == |lx.tokens| &&
      r == Evaluate(ParseExpression(lx, 0).tree)
    ensures ParseExpression(lx, 0).Thrown? ==> r == Err(ParseExpression(lx, 0).error)
    ensures ParseExpression(lx, 0).Built? && ParseExpression(lx, 0).next < |lx.tokens| ==> r == Err(UnexpectedParentheses)
    ensures ParseExpression(lx, 0).Built? && ParseExpression(lx, 0).next == |lx.tokens| ==> r == Evaluate(ParseExpression(lx, 0).tree)
    ensures r != Err(UnknownOperator)
    ensures |lx.tokens| > 0 ==> r != Err(TokenIndexOutOfRange)
  {
    var tree := ParseExpression(lx, 0);
    if tree.Thrown? then Err(tree.error)
    else if tree.next < GetTokenCount(lx) then Err(UnexpectedParentheses)
    else Evaluate(tree.tree)
  }

  /** `Parse`: reset the instance, tokenise, and parse and evaluate the tokens. */
  function Parse(p: RDParser, expr: string): (r: Result<int, Error>)
    ensures Lex(expr).Err? ==> r == Err(Lex(expr).error)
    ensures Lex(expr).Ok? ==> r == ParseTokens(Lexer(Lex(expr).value, expr))
    ensures r != Err(UnknownOperator) && r != Err(TokenIndexOutOfRange)
    ensures (r.Err? && r.error.FromLexer()) <==> Lex(expr).Err?
  {
    var (q, status) := Restart(p, expr);
    if status.Fail? then Err(status.error)
    else ParseTokens(q.lexer)
  }

  /** Parsing does not depend on anything a previous parse left in the instance. */
  lemma ParseForgetsState(p: RDParser, p': RDParser, expr: string)
    ensures Restart(p, expr) == Restart(p', expr)
    ensures Parse(p, expr) == Parse(p', expr) == Parse(NewParser(), expr)
  {
  }
}

=== FILE: printed.dfy ===
/**
 * Whole parses of printed token sequences: what `Parse` returns for the
 * tokens of an expression, and for tokens that continue or break off
 * after the tokens of an expression.
 */
module Printed {
  import opened Outcomes
  import opened Errors
  import opened Tokens
  import opened Scanner
  import opened Ast
  import opened RecursiveDescent
  import opened Unparse

  /** Tokens that print `e` and then hold a token the loop cannot fold: parsing stops early and `Parse` reports the leftover tokens. */
  lemma StopsEarly(lx: Lexer, e: Expr, n: nat)
    requires ExpressionAt(lx.tokens, 0, e) && n == |ExprTokens(e)| && n < |lx.tokens|
    requires !IsBinaryOperator(lx.tokens[n].operation)
    ensures ParseTokens(lx) == Err(UnexpectedParentheses)
  {
    ExpressionRoundTrip(lx, 0, e);
  }

  /** Tokens that print `e` and then an operator at `n` whose operand fails: the whole parse fails that way. */
  lemma FailsAfter(lx: Lexer, e: Expr, n: nat)
    requires ExpressionAt(lx.tokens, 0, e) && n == |ExprTokens(e)| && BreaksOff(lx, n)
    ensures ParseTokens(lx) == Err(ParseUnary(lx, n + 1).error)
  {
    ExpressionBreaksOff(lx, 0, e);
  }

  /** A `(` followed by the printed tokens of `e` and nothing else: the parenthesis is never closed. */
  lemma Unclosed(lx: Lexer, e: Expr)
    requires Printable(e) && lx.tokens == [PunctuationToken(LeftParen)] + ExprTokens(e)
    ensures ParseTokens(lx) == Err(ParenthesesMismatch)
  {
    forall i | 0 <= i < |ExprTokens(e)| ensures lx.tokens[1 + i] == ExprTokens(e)[i] {
    }
    ExpressionRoundTrip(lx, 1, e);
    MismatchStep(lx, 0, e, |lx.tokens|);
    OperandFailure(lx, 0);
  }

  /** Lexing and parsing compose: a lexed input whose tokens print `e` evaluates as `e`. */
  lemma ParsesAs(s: string, tokens: seq<Token>, e: Expr)
    requires Lex(s) == Ok(tokens) && Printable(e) && tokens == ExprTokens(e)
    ensures Parse(NewParser(), s) == Evaluate(e)
  {
    PrintedTokensParse(Lexer(tokens, s), e);
  }

  /** The parse of an input that lexes is the parse of its tokens. */
  lemma LexedParse(s: string, tokens: seq<Token>)
    requires Lex(s) == Ok(tokens)
    ensures Parse(NewParser(), s) == ParseTokens(Lexer(tokens, s))
  {
  }
}

=== FILE: scanner.dfy ===
/**
 * The lexical analyser of lexer.cpp. The two regular-expression scans of
 * `regexFindSubstrings` become explicit character-class scans: one collects
 * every character outside the allowed class, the other splits the input
 * into maximal digit runs and single operator characters, skipping the rest.
 */
module Scanner {
  import opened Outcomes
  import opened Errors
  import opened Chars
  import opened Tokens

  /** The expression a lexer holds before its first tokenisation and after a clear (lexer.h:14). */
  const Uninitialised: string := "Uninit"

  /** The state of a `Lexer` instance: its token container and the expression it last scanned. */
  datatype Lexer = Lexer(tokens: seq<Token>, expression: string)

  /** A freshly constructed lexer (lexer.cpp:8): it holds the placeholder expression and no token can be read from it. */
  function NewLexer(): (l: Lexer)
    ensures l.expression == Uninitialised
    ensures forall i: int :: GetToken(l, i) == Err(TokenIndexOutOfRange)
  {
    Lexer([], Uninitialised)
  }

  // ---------------------------------------------------------------------
  // The invalid-character scan

  /** One single-character string per invalid character of `s`, left to right. */
  function InvalidChars(s: string): (r: seq<string>)
    ensures |r| == |Keep(s, IsInvalidChar)|
    ensures forall k :: 0 <= k < |r| ==> r[k] == [Keep(s, IsInvalidChar)[k]]
    ensures r == [] <==> forall i :: 0 <= i < |s| ==> IsAllowedChar(s[i])
  {
    KeepEmpty(s, IsInvalidChar);
    if s == [] then []
    else
      var rest := InvalidChars(s[1..]);
      assert forall i :: 1 <= i < |s| ==> s[1..][i - 1] == s[i];
      if IsInvalidChar(s[0]) then [[s[0]]] + rest else rest
  }

  // ---------------------------------------------------------------------
  // The token scan

  /** A lexeme's position in the input: the characters at indices start .. end-1. */
  datatype Span = Span(start: nat, end: nat)

  predicate InString(s: string, sp: Span) {
    sp.start < sp.end <= |s|
  }

  function Slice(s: string, sp: Span): string
    requires InString(s, sp)
  {
    s[sp.start..sp.end]
  }

  predicate DigitsBetween(s: string, lo: nat, hi: nat)
    requires lo <= hi <= |s|
  {
    forall j :: lo <= j < hi ==> IsDigit(s[j])
  }

  /** No character in s[lo..hi] can start or continue a lexeme. */
  predicate Clear(s: string, lo: nat, hi: nat)
    requires lo <= hi <= |s|
  {
    forall j :: lo <= j < hi ==> !IsTokenChar(s[j])
  }

  /** A span is a lexeme: one operator character, or a run of digits that cannot be extended either way. */
  predicate IsMaximalLexeme(s: string, sp: Span)
    requires InString(s, sp)
  {
    || (sp.end == sp.start + 1 && IsOperatorChar(s[sp.start]))
    || (&& DigitsBetween(s, sp.start, sp.end)
        && (sp.start == 0 || !IsDigit(s[sp.start - 1]))
        && (sp.end == |s| || !IsDigit(s[sp.end])))
  }

  /**
   * The reference meaning of the token scan of s[from..]: lexemes in source
   * order, none overlapping, each maximal, and nothing between or around
   * them that could belong to a lexeme.
   */
  predicate WellFormedScan(s: string, from: nat, spans: seq<Span>)
    requires from <= |s|
  {
    && (forall k :: 0 <= k < |spans| ==> from <= spans[k].start && InString(s, spans[k]) && IsMaximalLexeme(s, spans[k]))
    && (forall k :: 0 < k < |spans| ==> spans[k - 1].end <= spans[k].start && Clear(s, spans[k - 1].end, spans[k].start))
    && (|spans| == 0 ==> Clear(s, from, |s|))
    && (|spans| > 0 ==> Clear(s, from, spans[0].start) && Clear(s, spans[|spans| - 1].end, |s|))
  }

  /** The end of the digit run that starts at `i` (the greedy `\d+`). */
  function DigitRunEnd(s: string, i: nat): (e: nat)
    requires i <= |s|
    ensures i <= e <= |s|
    ensures DigitsBetween(s, i, e)
    ensures e == |s| || !IsDigit(s[e])
    decreases |s| - i
  {
    if i < |s| && IsDigit(s[i]) then DigitRunEnd(s, i + 1) else i
  }

  /** Prepending a maximal lexeme to a well-formed scan that starts at its end. */
  lemma ConsScan(s: string, from: nat, sp: Span, rest: seq<Span>)
    requires from <= sp.start && InString(s, sp) && IsMaximalLexeme(s, sp)
    requires Clear(s, from, sp.start)
    requires WellFormedScan(s, sp.end, rest)
    ensures WellFormedScan(s, from, [sp] + rest)
  {
    var spans := [sp] + rest;
    forall k | 0 < k < |spans|
      ensures spans[k - 1].end <= spans[k].start && Clear(s, spans[k - 1].end, spans[k].start)
    {
      if k > 1 {
        assert spans[k - 1] == rest[k - 2] && spans[k] == rest[k - 1];
      }
    }
  }

  /** Skipping one character that cannot belong to a lexeme. */
  lemma SkipScan(s: string, from: nat, rest: seq<Span>)
    requires from < |s| && !IsTokenChar(s[from])
    requires WellFormedScan(s, from + 1, rest)
    ensures WellFormedScan(s, from, rest)
  {
  }

  /**
   * The lexemes of s[from..], as the successive matches of the token
   * pattern. At `from`, a digit may start a run only if no digit precedes it.
   */
  function ScanFrom(s: string, from: nat): (spans: seq<Span>)
    requires from <= |s|
    requires from == 0 || from == |s| || !IsDigit(s[from - 1]) || !IsDigit(s[from])
    ensures forall k :: 0 <= k < |spans| ==> from <= spans[k].start && InString(s, spans[k])
    decreases |s| - from
  {
    if from == |s| then []
    else if IsDigit(s[from]) then
      var e := DigitRunEnd(s, from);
      [Span(from, e)] + ScanFrom(s, e)
    else if IsOperatorChar(s[from]) then
      [Span(from, from + 1)] + ScanFrom(s, from + 1)
    else
      ScanFrom(s, from + 1)
  }

  /** The scan meets its reference meaning. */
  lemma {:induction false} ScanFromWellFormed(s: string, from: nat)
    requires from <= |s|
    requires from == 0 || from == |s| || !IsDigit(s[from - 1]) || !IsDigit(s[from])
    ensures WellFormedScan(s, from, ScanFrom(s, from))
    decreases |s| - from
  {
    if from < |s| {
      if IsDigit(s[from]) {
        var e := DigitRunEnd(s, from);
        ScanFromWellFormed(s, e);
        ConsScan(s, from, Span(from, e), ScanFrom(s, e));
      } else if IsOperatorChar(s[from]) {
        ScanFromWellFormed(s, from + 1);
        ConsScan(s, from, Span(from, from + 1), ScanFrom(s, from + 1));
      } else {
        ScanFromWellFormed(s, from + 1);
        SkipScan(s, from, ScanFrom(s, from + 1));
      }
    }
  }

  /** The lexemes of the whole input. */
  function Scan(s: string): (spans: seq<Span>)
    ensures WellFormedScan(s, 0, spans)
  {
    ScanFromWellFormed(s, 0);
    ScanFrom(s, 0)
  }

  /** The text of each span. */
  function Raws(s: string, spans: seq<Span>): (r: seq<string>)
    requires forall k :: 0 <= k < |spans| ==> InString(s, spans[k])
    ensures |r| == |spans|
  {
    seq(|spans|, k requires 0 <= k < |spans| => Slice(s, spans[k]))
  }

  function Flatten(ss: seq<string>): string {
    if ss == [] then [] else ss[0] + Flatten(ss[1..])
  }

  lemma RawsCons(s: string, sp: Span, rest: seq<Span>)
    requires InString(s, sp) && forall k :: 0 <= k < |rest| ==> InString(s, rest[k])
    ensures Raws(s, [sp] + rest) == [Slice(s, sp)] + Raws(s, rest)
  {
  }

  lemma FlattenCons(x: string, ys: seq<string>)
    ensures Flatten([x] + ys) == x + Flatten(ys)
  {
    assert ([x] + ys)[1..] == ys;
  }

  /** One step of ScanConcat: a lexeme s[from..e] followed by the lexemes of s[e..]. */
  lemma ConcatStep(s: string, from: nat, e: nat, rest: seq<Span>)
    requires from < e <= |s| && forall k :: 0 <= k < |rest| ==> InString(s, rest[k])
    requires forall j :: from <= j < e ==> IsTokenChar(s[j])
    requires Flatten(Raws(s, rest)) == Keep(s[e..], IsTokenChar)
    ensures Flatten(Raws(s, [Span(from, e)] + rest)) == Keep(s[from..], IsTokenChar)
  {
    assert s[from..] == s[from..e] + s[e..];
    KeepAppend(s[from..e], s[e..], IsTokenChar);
    RawsCons(s, Span(from, e), rest);
    FlattenCons(s[from..e], Raws(s, rest));
    KeepAll(s[from..e], IsTokenChar);
  }

  /** The other step of ScanConcat: a character no lexeme contains adds nothing. */
  lemma ConcatSkip(s: string, from: nat, rest: seq<Span>)
    requires from < |s| && !IsTokenChar(s[from]) && forall k :: 0 <= k < |rest| ==> InString(s, rest[k])
    requires Flatten(Raws(s, rest)) == Keep(s[from + 1..], IsTokenChar)
    ensures Flatten(Raws(s, rest)) == Keep(s[from..], IsTokenChar)
  {
    assert s[from..] == [s[from]] + s[from + 1..];
  }

  /** Concatenating the lexemes of s[from..] gives its token characters, in order. */
  lemma {:induction false} ScanConcat(s: string, from: nat)
    requires from <= |s|
    requires from == 0 || from == |s| || !IsDigit(s[from - 1]) || !IsDigit(s[from])
    ensures Flatten(Raws(s, ScanFrom(s, from))) == Keep(s[from..], IsTokenChar)
    decreases |s| - from
  {
    if from < |s| {
      var e := if IsDigit(s[from]) then DigitRunEnd(s, from) else from + 1;
      var rest := ScanFrom(s, e);
      ScanConcat(s, e);
      if IsTokenChar(s[from]) {
        ConcatStep(s, from, e, rest);
      } else {
        ConcatSkip(s, from, rest);
      }
    }
  }

  /** The raw text of every lexeme, left to right. */
  function Lexemes(s: string): (r: seq<string>)
    ensures |r| == |Scan(s)|
    ensures forall k :: 0 <= k < |r| ==> r[k] == Slice(s, Scan(s)[k]) && IsLexemeText(r[k])
    ensures Flatten(r) == Keep(s, IsTokenChar)
  {
    ScanConcat(s, 0);
    assert s[0..] == s;
    var spans := Scan(s);
    assert forall k :: 0 <= k < |spans| ==> IsLexemeText(Slice(s, spans[k])) by {
      forall k | 0 <= k < |spans| {
        ScanLexemeText(s, 0, spans, k);
      }
    }
    Raws(s, spans)
  }

  // ---------------------------------------------------------------------
  // Classification

  /** What the token scan can produce: a digit run or one operator character. */
  predicate IsLexemeText(raw: string) {
    || (|raw| == 1 && IsOperatorChar(raw[0]))
    || (|raw| >= 1 && AllDigits(raw))
  }

  /** A lexeme becomes a token by its first character (lexer.cpp:40-57). */
  function Classify(raw: string): (t: Token)
    requires IsLexemeText(raw)
    ensures t.raw == raw
    ensures t.operation != None
    ensures t.operation == Literal <==> IsDigit(raw[0])
    ensures t.operation == Literal ==> t.value == DecimalValue(raw) && t.value >= 0
    ensures t.operation != Literal ==> t.value == NotApplicable && IsPunctuation(t.operation) && raw == [OperatorChar(t.operation)]
  {
    match raw[0]
    case '(' => Token(LeftParen, NotApplicable, raw)
    case ')' => Token(RightParen, NotApplicable, raw)
    case '-' => Token(Subtraction, NotApplicable, raw)
    case '+' => Token(Addition, NotApplicable, raw)
    case '*' => Token(Multiplication, NotApplicable, raw)
    case '/' => Token(Division, NotApplicable, raw)
    case _ => Token(Literal, DecimalValue(raw), raw)
  }

  /** Every lexeme of a well-formed scan is text Classify accepts. */
  lemma ScanLexemeText(s: string, from: nat, spans: seq<Span>, k: nat)
    requires from <= |s| && WellFormedScan(s, from, spans) && k < |spans|
    ensures IsLexemeText(Slice(s, spans[k]))
  {
    var sp := spans[k];
    var raw := Slice(s, sp);
    if !(sp.end == sp.start + 1 && IsOperatorChar(s[sp.start])) {
      assert forall i :: 0 <= i < |raw| ==> raw[i] == s[sp.start + i];
    }
  }

  function RawsOf(tokens: seq<Token>): (r: seq<string>)
    ensures |r| == |tokens|
  {
    seq(|tokens|, k requires 0 <= k < |tokens| => tokens[k].raw)
  }

  predicate IsNotSpace(c: char) {
    c != ' '
  }

  /** On an input without invalid characters, token characters are exactly the non-space ones. */
  lemma {:induction false} TokenCharsAreNonSpaces(s: string)
    requires forall i :: 0 <= i < |s| ==> IsAllowedChar(s[i])
    ensures Keep(s, IsTokenChar) == Keep(s, IsNotSpace)
  {
    if s != [] {
      assert forall i :: 0 <= i < |s[1..]| ==> s[1..][i] == s[i + 1];
      TokenCharsAreNonSpaces(s[1..]);
    }
  }

  /** Classifying each lexeme of a valid input, left to right (lexer.cpp:38-60). */
  function ClassifyAll(s: string): (tokens: seq<Token>)
    ensures |tokens| == |Lexemes(s)|
    ensures forall k :: 0 <= k < |tokens| ==> tokens[k] == Classify(Lexemes(s)[k])
    ensures RawsOf(tokens) == Lexemes(s)
  {
    var lexemes := Lexemes(s);
    var tokens := seq(|lexemes|, k requires 0 <= k < |lexemes| => Classify(lexemes[k]));
    assert RawsOf(tokens) == lexemes;
    tokens
  }

  /** On an input with no invalid character, the scan is empty exactly when the input is all spaces. */
  lemma NoLexemes(s: string)
    requires forall i :: 0 <= i < |s| ==> IsAllowedChar(s[i])
    ensures Lexemes(s) == [] <==> forall i :: 0 <= i < |s| ==> s[i] == ' '
  {
    KeepEmpty(s, IsTokenChar);
    if Lexemes(s) == [] {
      assert Flatten(Lexemes(s)) == [];
    }
  }

  /**
   * The whole of `Tokenise` as a pure function of the expression: the
   * invalid-character check first, then the token scan, then
   * classification of each lexeme in source order.
   */
  function Lex(s: string): (r: Result<seq<Token>, Error>)
    ensures r.Err? ==> r.error.InvalidToken? || r.error.EmptyExpression?
    ensures r.Err? && r.error.InvalidToken? <==> exists i :: 0 <= i < |s| && IsInvalidChar(s[i])
    ensures r.Err? && r.error.InvalidToken? ==> r.error.offending == InvalidChars(s)
    ensures r == Err(EmptyExpression) <==> forall i :: 0 <= i < |s| ==> s[i] == ' '
    ensures r.Ok? ==> |r.value| == |Scan(s)| > 0
    ensures r.Ok? ==> forall k :: 0 <= k < |r.value| ==> r.value[k] == Classify(Lexemes(s)[k])
    ensures r.Ok? ==> Flatten(RawsOf(r.value)) == Keep(s, IsNotSpace)
  {
    var bad := InvalidChars(s);
    if bad != [] then Err(InvalidToken(bad))
    else
      NoLexemes(s);
      if Lexemes(s) == [] then Err(EmptyExpression)
      else
        TokenCharsAreNonSpaces(s);
        Ok(ClassifyAll(s))
  }

  // ---------------------------------------------------------------------
  // The Lexer's public operations

  /**
   * `Tokenise`: records the expression, then either appends its tokens to
   * the container or fails leaving the container as it was (both errors are
   * raised before the first push).
   */
  function Tokenise(lx: Lexer, expr: string): (r: (Lexer, Outcome<Error>))
    ensures r.0.expression == expr
    ensures r.1.Fail? <==> Lex(expr).Err?
    ensures r.1.Fail? ==> r.0.tokens == lx.tokens && r.1.error == Lex(expr).error
    ensures r.1.Pass? ==> r.0.tokens == lx.tokens + Lex(expr).value
  {
    match Lex(expr)
    case Err(e) => (Lexer(lx.tokens, expr), Fail(e))
    case Ok(ts) => (Lexer(lx.tokens + ts, expr), Pass)
  }

  /** `getToken`: bounds-checked access to the container. */
  function GetToken(lx: Lexer, i: int): (r: Result<Token, Error>)
    ensures r.Ok? <==> 0 <= i < |lx.tokens|
    ensures r.Ok? ==> r.value == lx.tokens[i]
    ensures r.Err? ==> r.error == TokenIndexOutOfRange
  {
    if i < 0 || i >= |lx.tokens| then Err(TokenIndexOutOfRange) else Ok(lx.tokens[i])
  }

  /** `getTokenCount`: exactly the indices below the count are ones `getToken` accepts. */
  function GetTokenCount(lx: Lexer): (n: nat)
    ensures n == |lx.tokens|
    ensures forall i: int :: GetToken(lx, i).Ok? <==> 0 <= i < n
  {
    |lx.tokens|
  }

  /** Tokenising adds one token per lexeme on success and none on failure. */
  lemma TokeniseCount(lx: Lexer, expr: string)
    ensures GetTokenCount(Tokenise(lx, expr).0) == GetTokenCount(lx) + (if Lex(expr).Ok? then |Lex(expr).value| else 0)
    ensures Lex(expr).Ok? ==> GetTokenCount(Tokenise(lx, expr).0) > GetTokenCount(lx)
  {
  }

  /** `clearTokens`: empties the container and forgets the expression. */
  function ClearTokens(lx: Lexer): (r: Lexer)
    ensures GetTokenCount(r) == 0
    ensures r == NewLexer()
  {
    Lexer([], Uninitialised)
  }
}

=== FILE: scenarios.dfy ===
/**
 * The cases of the unit tests (Tests/Tests.cpp), each a lemma about what a
 * fresh parser returns for the test's input string. Every input is followed
 * from its characters: where each token is written (its start index), that
 * the scanner therefore produces exactly those tokens, and which tree those
 * tokens print, or which prefix of them parses before the parse fails.
 */
module Scenarios {
  import opened Outcomes
  import opened Errors
  import opened Chars
  import opened Tokens
  import opened Scanner
  import opened Spelling
  import opened Joining
  import opened Ast
  import opened RecursiveDescent
  import opened Unparse
  import opened Printed

  function Number(v: nat): Token {
    LiteralToken(v)
  }

  const Plus: Token := PunctuationToken(Addition)
  const Minus: Token := PunctuationToken(Subtraction)
  const Times: Token := PunctuationToken(Multiplication)
  const Slash: Token := PunctuationToken(Division)
  const Open: Token := PunctuationToken(LeftParen)
  const Close: Token := PunctuationToken(RightParen)

  // ---------------------------------------------------------------------
  // From the round trip to whole parses

  /** The tokens built by `Number` and the operator constants are the scanner's own. */
  lemma Rescanning()
    ensures forall v: nat {:trigger Number(v)} :: Rescans(Number(v))
    ensures Rescans(Plus) && Rescans(Minus) && Rescans(Times) && Rescans(Slash) && Rescans(Open) && Rescans(Close)
  {
    forall v: nat ensures Rescans(Number(v)) {
      LiteralTokenScans(v);
    }
  }

  // ---------------------------------------------------------------------
  // The inputs, from their characters to their tokens

  const SimpleInput := "1 + 3"
  const SimpleStarts: seq<nat> := [0, 2, 4]
  const SimpleTokens := [Number(1), Plus, Number(3)]

  lemma SimpleFit()
    ensures TokensFit(SimpleStarts, SimpleTokens)
  {
    Rescanning();
  }

  lemma SimpleWritten()
    ensures |SimpleStarts| == |SimpleTokens| && Written(SimpleInput, SimpleStarts, SimpleTokens)
  {
  }

  lemma SimpleSpaced()
    ensures |SimpleStarts| == |SimpleTokens| && Spaced(SimpleInput, SimpleStarts, SimpleTokens)
  {
  }

  lemma SimpleLexes()
    ensures Lex(SimpleInput) == Ok(SimpleTokens)
  {
    SimpleFit();
    SimpleWritten();
    SimpleSpaced();
    SpelledLex(SimpleInput, SimpleStarts, SimpleTokens);
  }

  const BraceInput := "4 + (12 / (1 * 2))"
  const BraceStarts: seq<nat> := [0, 2, 4, 5, 8, 10, 11, 13, 15, 16, 17]
  const BraceTokens := [Number(4), Plus, Open, Number(12), Slash, Open, Number(1), Times, Number(2), Close, Close]

  lemma BraceFit()
    ensures TokensFit(BraceStarts, BraceTokens)
  {
    Rescanning();
  }

  lemma BraceWritten()
    ensures |BraceStarts| == |BraceTokens| && Written(BraceInput, BraceStarts, BraceTokens)
  {
  }

  lemma BraceSpaced()
    ensures |BraceStarts| == |BraceTokens| && Spaced(BraceInput, BraceStarts, BraceTokens)
  {
  }

  lemma BraceLexes()
    ensures Lex(BraceInput) == Ok(BraceTokens)
  {
    BraceFit();
    BraceWritten();
    BraceSpaced();
    SpelledLex(BraceInput, BraceStarts, BraceTokens);
  }

  const NegationInput := "1 + 4 * -2"
  const NegationStarts: seq<nat> := [0, 2, 4, 6, 8, 9]
  const NegationTokens := [Number(1), Plus, Number(4), Times, Minus, Number(2)]

  lemma NegationFit()
    ensures TokensFit(NegationStarts, NegationTokens)
  {
    Rescanning();
  }

  lemma NegationWritten()
    ensures |NegationStarts| == |NegationTokens| && Written(NegationInput, NegationStarts, NegationTokens)
  {
  }

  lemma NegationSpaced()
    ensures |NegationStarts| == |NegationTokens| && Spaced(NegationInput, NegationStarts, NegationTokens)
  {
  }

  lemma NegationLexes()
    ensures Lex(NegationInput) == Ok(NegationTokens)
  {
    NegationFit();
    NegationWritten();
    NegationSpaced();
    SpelledLex(NegationInput, NegationStarts, NegationTokens);
  }

  const SubtractionInput := "1 - 5 * 2"
  const SubtractionStarts: seq<nat> := [0, 2, 4, 6, 8]
  const SubtractionTokens := [Number(1), Minus, Number(5), Times, Number(2)]

  lemma SubtractionFit()
    ensures TokensFit(SubtractionStarts, SubtractionTokens)
  {
    Rescanning();
  }

  lemma SubtractionWritten()
    ensures |SubtractionStarts| == |SubtractionTokens| && Written(SubtractionInput, SubtractionStarts, SubtractionTokens)
  {
  }

  lemma SubtractionSpaced()
    ensures |SubtractionStarts| == |SubtractionTokens| && Spaced(SubtractionInput, SubtractionStarts, SubtractionTokens)
  {
  }

  lemma SubtractionLexes()
    ensures Lex(SubtractionInput) == Ok(SubtractionTokens)
  {
    SubtractionFit();
    SubtractionWritten();
    SubtractionSpaced();
    SpelledLex(SubtractionInput, SubtractionStarts, SubtractionTokens);
  }

  const PrecedenceInput := "1 + 3 * 4"
  const PrecedenceStarts: seq<nat> := [0, 2, 4, 6, 8]
  const PrecedenceTokens := [Number(1), Plus, Number(3), Times, Number(4)]

  lemma PrecedenceFit()
    ensures TokensFit(PrecedenceStarts, PrecedenceTokens)
  {
    Rescanning();
  }

  lemma PrecedenceWritten()
    ensures |PrecedenceStarts| == |PrecedenceTokens| && Written(PrecedenceInput, PrecedenceStarts, PrecedenceTokens)
  {
  }

  lemma PrecedenceSpaced()
    ensures |PrecedenceStarts| == |PrecedenceTokens| && Spaced(PrecedenceInput, PrecedenceStarts, PrecedenceTokens)
  {
  }

  lemma PrecedenceLexes()
    ensures Lex(PrecedenceInput) == Ok(PrecedenceTokens)
  {
    PrecedenceFit();
    PrecedenceWritten();
    PrecedenceSpaced();
    SpelledLex(PrecedenceInput, PrecedenceStarts, PrecedenceTokens);
  }

  const ByZeroInput := "5 / 0"
  const ByZeroStarts: seq<nat> := [0, 2, 4]
  const ByZeroTokens := [Number(5), Slash, Number(0)]

  lemma ByZeroFit()
    ensures TokensFit(ByZeroStarts, ByZeroTokens)
  {
    Rescanning();
  }

  lemma ByZeroWritten()
    ensures |ByZeroStarts| == |ByZeroTokens| && Written(ByZeroInput, ByZeroStarts, ByZeroTokens)
  {
  }

  lemma ByZeroSpaced()
    ensures |ByZeroStarts| == |ByZeroTokens| && Spaced(ByZeroInput, ByZeroStarts, ByZeroTokens)
  {
  }

  lemma ByZeroLexes()
    ensures Lex(ByZeroInput) == Ok(ByZeroTokens)
  {
    ByZeroFit();
    ByZeroWritten();
    ByZeroSpaced();
    SpelledLex(ByZeroInput, ByZeroStarts, ByZeroTokens);
  }

  const AtEndInput := "5 + 6 + 4 +"
  const AtEndStarts: seq<nat> := [0, 2, 4, 6, 8, 10]
  const AtEndTokens := [Number(5), Plus, Number(6), Plus, Number(4), Plus]

  lemma AtEndFit()
    ensures TokensFit(AtEndStarts, AtEndTokens)
  {
    Rescanning();
  }

  lemma AtEndWritten()
    ensures |AtEndStarts| == |AtEndTokens| && Written(AtEndInput, AtEndStarts, AtEndTokens)
  {
  }

  lemma AtEndSpaced()
    ensures |AtEndStarts| == |AtEndTokens| && Spaced(AtEndInput, AtEndStarts, AtEndTokens)
  {
  }

  lemma AtEndLexes()
    ensures Lex(AtEndInput) == Ok(AtEndTokens)
  {
    AtEndFit();
    AtEndWritten();
    AtEndSpaced();
    SpelledLex(AtEndInput, AtEndStarts, AtEndTokens);
  }

  const CombinationInput := "5 + 6 *+ 4"
  const CombinationStarts: seq<nat> := [0, 2, 4, 6, 7, 9]
  const CombinationTokens := [Number(5), Plus, Number(6), Times, Plus, Number(4)]

  lemma CombinationFit()
    ensures TokensFit(CombinationStarts, CombinationTokens)
  {
    Rescanning();
  }

  lemma CombinationWritten()
    ensures |CombinationStarts| == |CombinationTokens| && Written(CombinationInput, CombinationStarts, CombinationTokens)
  {
  }

  lemma CombinationSpaced()
    ensures |CombinationStarts| == |CombinationTokens| && Spaced(CombinationInput, CombinationStarts, CombinationTokens)
  {
  }

  lemma CombinationLexes()
    ensures Lex(CombinationInput) == Ok(CombinationTokens)
  {
    CombinationFit();
    CombinationWritten();
    CombinationSpaced();
    SpelledLex(CombinationInput, CombinationStarts, CombinationTokens);
  }

  const LeftBraceInput := "(1 + (12 * 2) "
  const LeftBraceStarts: seq<nat> := [0, 1, 3, 5, 6, 9, 11, 12]
  const LeftBraceTokens := [Open, Number(1), Plus, Open, Number(12), Times, Number(2), Close]

  lemma LeftBraceFit()
    ensures TokensFit(LeftBraceStarts, LeftBraceTokens)
  {
    Rescanning();
  }

  lemma LeftBraceWritten()
    ensures |LeftBraceStarts| == |LeftBraceTokens| && Written(LeftBraceInput, LeftBraceStarts, LeftBraceTokens)
  {
  }

  lemma LeftBraceSpaced()
    ensures |LeftBraceStarts| == |LeftBraceTokens| && Spaced(LeftBraceInput, LeftBraceStarts, LeftBraceTokens)
  {
  }

  lemma LeftBraceLexes()
    ensures Lex(LeftBraceInput) == Ok(LeftBraceTokens)
  {
    LeftBraceFit();
    LeftBraceWritten();
    LeftBraceSpaced();
    SpelledLex(LeftBraceInput, LeftBraceStarts, LeftBraceTokens);
  }

  const RightBraceInput := "5 + 6) *+ 4"
  const RightBraceStarts: seq<nat> := [0, 2, 4, 5, 7, 8, 10]
  const RightBraceTokens := [Number(5), Plus, Number(6), Close, Times, Plus, Number(4)]

  lemma RightBraceFit()
    ensures TokensFit(RightBraceStarts, RightBraceTokens)
  {
    Rescanning();
  }

  lemma RightBraceWritten()
    ensures |RightBraceStarts| == |RightBraceTokens| && Written(RightBraceInput, RightBraceStarts, RightBraceTokens)
  {
  }

  lemma RightBraceSpaced()
    ensures |RightBraceStarts| == |RightBraceTokens| && Spaced(RightBraceInput, RightBraceStarts, RightBraceTokens)
  {
  }

  lemma RightBraceLexes()
    ensures Lex(RightBraceInput) == Ok(RightBraceTokens)
  {
    RightBraceFit();
    RightBraceWritten();
    RightBraceSpaced();
    SpelledLex(RightBraceInput, RightBraceStarts, RightBraceTokens);
  }

  const LeftPositionInput := "5( + 6 *+ 4"
  const LeftPositionStarts: seq<nat> := [0, 1, 3, 5, 7, 8, 10]
  const LeftPositionTokens := [Number(5), Open, Plus, Number(6), Times, Plus, Number(4)]

  lemma LeftPositionFit()
    ensures TokensFit(LeftPositionStarts, LeftPositionTokens)
  {
    Rescanning();
  }

  lemma LeftPositionWritten()
    ensures |LeftPositionStarts| == |LeftPositionTokens| && Written(LeftPositionInput, LeftPositionStarts, LeftPositionTokens)
  {
  }

  lemma LeftPositionSpaced()
    ensures |LeftPositionStarts| == |LeftPositionTokens| && Spaced(LeftPositionInput, LeftPositionStarts, LeftPositionTokens)
  {
  }

  lemma LeftPositionLexes()
    ensures Lex(LeftPositionInput) == Ok(LeftPositionTokens)
  {
    LeftPositionFit();
    LeftPositionWritten();
    LeftPositionSpaced();
    SpelledLex(LeftPositionInput, LeftPositionStarts, LeftPositionTokens);
  }

  const RightPositionInput := "5 + )6 *+ 4"
  const RightPositionStarts: seq<nat> := [0, 2, 4, 5, 7, 8, 10]
  const RightPositionTokens := [Number(5), Plus, Close, Number(6), Times, Plus, Number(4)]

  lemma RightPositionFit()
    ensures TokensFit(RightPositionStarts, RightPositionTokens)
  {
    Rescanning();
  }

  lemma RightPositionWritten()
    ensures |RightPositionStarts| == |RightPositionTokens| && Written(RightPositionInput, RightPositionStarts, RightPositionTokens)
  {
  }

  lemma RightPositionSpaced()
    ensures |RightPositionStarts| == |RightPositionTokens| && Spaced(RightPositionInput, RightPositionStarts, RightPositionTokens)
  {
  }

  lemma RightPositionLexes()
    ensures Lex(RightPositionInput) == Ok(RightPositionTokens)
  {
    RightPositionFit();
    RightPositionWritten();
    RightPositionSpaced();
    SpelledLex(RightPositionInput, RightPositionStarts, RightPositionTokens);
  }

  const NegationsInput := "----5+---6*6"
  const NegationsStarts: seq<nat> := [0, 1, 2, 3, 4, 5, 6, 7, 8, 9, 10, 11]
  const NegationsTokens := [Minus, Minus, Minus, Minus, Number(5), Plus, Minus, Minus, Minus, Number(6), Times, Number(6)]

  lemma NegationsFit()
    ensures TokensFit(NegationsStarts, NegationsTokens)
  {
    Rescanning();
  }

  lemma NegationsWritten()
    ensures |NegationsStarts| == |NegationsTokens| && Written(NegationsInput, NegationsStarts, NegationsTokens)
  {
  }

  lemma NegationsSpaced()
    ensures |NegationsStarts| == |NegationsTokens| && Spaced(NegationsInput, NegationsStarts, NegationsTokens)
  {
  }

  lemma NegationsLexes()
    ensures Lex(NegationsInput) == Ok(NegationsTokens)
  {
    NegationsFit();
    NegationsWritten();
    NegationsSpaced();
    SpelledLex(NegationsInput, NegationsStarts, NegationsTokens);
  }

  // ---------------------------------------------------------------------
  // The cases that evaluate: the tree the tokens print, and its value

  function SimpleTree(): (e: Expr)
    ensures Printable(e) && ExprTokens(e) == SimpleTokens && Evaluate(e) == Ok(4)
  {
    BinaryNode(Addition, LiteralNode(1), LiteralNode(3))
  }

  /** The innermost parentheses of the brace input: (1 * 2). */
  function BraceProduct(): (e: Expr)
    ensures Printable(e) && ExprTokens(e) == [Number(1), Times, Number(2)] && Evaluate(e) == Ok(2)
  {
    BinaryNode(Multiplication, LiteralNode(1), LiteralNode(2))
  }

  /** The outer parentheses of the brace input: (12 / (1 * 2)). */
  function BraceQuotient(): (e: Expr)
    ensures Printable(e) && ExprTokens(e) == [Number(12), Slash, Open, Number(1), Times, Number(2), Close]
    ensures Evaluate(e) == Ok(6)
  {
    BinaryNode(Division, LiteralNode(12), BraceProduct())
  }

  function BraceTree(): (e: Expr)
    ensures Printable(e) && ExprTokens(e) == BraceTokens && Evaluate(e) == Ok(10)
  {
    BinaryNode(Addition, LiteralNode(4), BraceQuotient())
  }

  /** Operators fold left to right with no precedence: (1 + 4) * -2. */
  function NegationTree(): (e: Expr)
    ensures Printable(e) && ExprTokens(e) == NegationTokens && Evaluate(e) == Ok(-10)
  {
    BinaryNode(Multiplication, BinaryNode(Addition, LiteralNode(1), LiteralNode(4)), UnaryNode(LiteralNode(2)))
  }

  function SubtractionTree(): (e: Expr)
    ensures Printable(e) && ExprTokens(e) == SubtractionTokens && Evaluate(e) == Ok(-8)
  {
    BinaryNode(Multiplication, BinaryNode(Subtraction, LiteralNode(1), LiteralNode(5)), LiteralNode(2))
  }

  function PrecedenceTree(): (e: Expr)
    ensures Printable(e) && ExprTokens(e) == PrecedenceTokens && Evaluate(e) == Ok(16)
  {
    BinaryNode(Multiplication, BinaryNode(Addition, LiteralNode(1), LiteralNode(3)), LiteralNode(4))
  }

  function ByZeroTree(): (e: Expr)
    ensures Printable(e) && ExprTokens(e) == ByZeroTokens && Evaluate(e) == Err(DivideByZero)
  {
    BinaryNode(Division, LiteralNode(5), LiteralNode(0))
  }

  /** The sum of the multiple-negation input: ----5 + ---6. */
  function NegationsSum(): (e: Expr)
    ensures Printable(e) && Evaluate(e) == Ok(-1)
    ensures ExprTokens(e) == [Minus, Minus, Minus, Minus, Number(5), Plus, Minus, Minus, Minus, Number(6)]
  {
    BinaryNode(Addition, UnaryNode(UnaryNode(UnaryNode(UnaryNode(LiteralNode(5))))), UnaryNode(UnaryNode(UnaryNode(LiteralNode(6)))))
  }

  function NegationsTree(): (e: Expr)
    ensures Printable(e) && ExprTokens(e) == NegationsTokens && Evaluate(e) == Ok(-6)
  {
    BinaryNode(Multiplication, NegationsSum(), LiteralNode(6))
  }

  /** Tests.cpp, SimpleTerm. */
  lemma SimpleTerm()
    ensures Parse(NewParser(), SimpleInput) == Ok(4)
  {
    SimpleLexes();
    ParsesAs(SimpleInput, SimpleTokens, SimpleTree());
  }

  /** Tests.cpp, BracePrecedes and Division (the same input). */
  lemma BracePrecedes()
    ensures Parse(NewParser(), BraceInput) == Ok(10)
  {
    BraceLexes();
    ParsesAs(BraceInput, BraceTokens, BraceTree());
  }

  /** Tests.cpp, NegationApplied. */
  lemma NegationApplied()
    ensures Parse(NewParser(), NegationInput) == Ok(-10)
  {
    NegationLexes();
    ParsesAs(NegationInput, NegationTokens, NegationTree());
  }

  /** Tests.cpp, SubtractionApplied. */
  lemma SubtractionApplied()
    ensures Parse(NewParser(), SubtractionInput) == Ok(-8)
  {
    SubtractionLexes();
    ParsesAs(SubtractionInput, SubtractionTokens, SubtractionTree());
  }

  /** Tests.cpp, FactorTermHasEqualPrecedence. */
  lemma FactorTermHasEqualPrecedence()
    ensures Parse(NewParser(), PrecedenceInput) == Ok(16)
  {
    PrecedenceLexes();
    ParsesAs(PrecedenceInput, PrecedenceTokens, PrecedenceTree());
  }

  /** Tests.cpp, DivideByZeroExcepts. */
  lemma DivideByZeroExcepts()
    ensures Parse(NewParser(), ByZeroInput) == Err(DivideByZero)
  {
    ByZeroLexes();
    ParsesAs(ByZeroInput, ByZeroTokens, ByZeroTree());
  }

  /** Tests.cpp, MultipleNegationValid. */
  lemma MultipleNegationValid()
    ensures Parse(NewParser(), NegationsInput) == Ok(-6)
  {
    NegationsLexes();
    ParsesAs(NegationsInput, NegationsTokens, NegationsTree());
  }

  // ---------------------------------------------------------------------
  // The cases that fail: the longest prefix that parses, and what follows it

  /** "5 + 6 + 4" and then a `+` with nothing after it. */
  function AtEndPrefix(): (e: Expr)
    ensures ExpressionAt(AtEndTokens, 0, e) && |ExprTokens(e)| == 5
  {
    BinaryNode(Addition, BinaryNode(Addition, LiteralNode(5), LiteralNode(6)), LiteralNode(4))
  }

  /** "5 + 6" and then `*` followed by `+`. */
  function CombinationPrefix(): (e: Expr)
    ensures ExpressionAt(CombinationTokens, 0, e) && |ExprTokens(e)| == 3
  {
    BinaryNode(Addition, LiteralNode(5), LiteralNode(6))
  }

  /** "5 + 6" and then `)`. */
  function RightBracePrefix(): (e: Expr)
    ensures ExpressionAt(RightBraceTokens, 0, e) && |ExprTokens(e)| == 3
  {
    BinaryNode(Addition, LiteralNode(5), LiteralNode(6))
  }

  /** "5" and then `(`. */
  function LeftPositionPrefix(): (e: Expr)
    ensures ExpressionAt(LeftPositionTokens, 0, e) && |ExprTokens(e)| == 1
  {
    LiteralNode(5)
  }

  /** "5" and then `+` followed by `)`. */
  function RightPositionPrefix(): (e: Expr)
    ensures ExpressionAt(RightPositionTokens, 0, e) && |ExprTokens(e)| == 1
  {
    LiteralNode(5)
  }

  /** Everything after the opening `(`. */
  function LeftBraceBody(): (e: Expr)
    ensures Printable(e) && LeftBraceTokens == [Open] + ExprTokens(e)
  {
    BinaryNode(Addition, LiteralNode(1), BinaryNode(Multiplication, LiteralNode(12), LiteralNode(2)))
  }

  lemma AtEndFails(lx: Lexer)
    requires lx.tokens == AtEndTokens
    ensures ParseTokens(lx) == Err(UnexpectedToken("+"))
  {
    UnexpectedStep(lx, 6);
    FailsAfter(lx, AtEndPrefix(), 5);
  }

  lemma CombinationFails(lx: Lexer)
    requires lx.tokens == CombinationTokens
    ensures ParseTokens(lx) == Err(UnexpectedToken("+"))
  {
    UnexpectedStep(lx, 4);
    FailsAfter(lx, CombinationPrefix(), 3);
  }

  lemma RightPositionFails(lx: Lexer)
    requires lx.tokens == RightPositionTokens
    ensures ParseTokens(lx) == Err(UnexpectedToken(")"))
  {
    UnexpectedStep(lx, 2);
    FailsAfter(lx, RightPositionPrefix(), 1);
  }

  lemma RightBraceStops(lx: Lexer)
    requires lx.tokens == RightBraceTokens
    ensures ParseTokens(lx) == Err(UnexpectedParentheses)
  {
    StopsEarly(lx, RightBracePrefix(), 3);
  }

  lemma LeftPositionStops(lx: Lexer)
    requires lx.tokens == LeftPositionTokens
    ensures ParseTokens(lx) == Err(UnexpectedParentheses)
  {
    StopsEarly(lx, LeftPositionPrefix(), 1);
  }

  /** Tests.cpp, UnexpectedTokenAtEndExcepts: the trailing `+` is reported. */
  lemma UnexpectedTokenAtEndExcepts()
    ensures Parse(NewParser(), AtEndInput) == Err(UnexpectedToken("+"))
  {
    AtEndLexes();
    LexedParse(AtEndInput, AtEndTokens);
    AtEndFails(Lexer(AtEndTokens, AtEndInput));
  }

  /** Tests.cpp, InvalidTokenCombinationExcepts: the `+` after `*` is reported. */
  lemma InvalidTokenCombinationExcepts()
    ensures Parse(NewParser(), CombinationInput) == Err(UnexpectedToken("+"))
  {
    CombinationLexes();
    LexedParse(CombinationInput, CombinationTokens);
    CombinationFails(Lexer(CombinationTokens, CombinationInput));
  }

  /** Tests.cpp, UnmatchedLeftBraceExcepts. */
  lemma UnmatchedLeftBraceExcepts()
    ensures Parse(NewParser(), LeftBraceInput) == Err(ParenthesesMismatch)
  {
    LeftBraceLexes();
    LexedParse(LeftBraceInput, LeftBraceTokens);
    Unclosed(Lexer(LeftBraceTokens, LeftBraceInput), LeftBraceBody());
  }

  /** Tests.cpp, UnmatchedRightBraceExcepts: the parse stops before `)` with tokens left over. */
  lemma UnmatchedRightBraceExcepts()
    ensures Parse(NewParser(), RightBraceInput) == Err(UnexpectedParentheses)
  {
    RightBraceLexes();
    LexedParse(RightBraceInput, RightBraceTokens);
    RightBraceStops(Lexer(RightBraceTokens, RightBraceInput));
  }

  /** Tests.cpp, IncorrectLeftBracePositionExcepts: the parse stops before `(` with tokens left over. */
  lemma IncorrectLeftBracePositionExcepts()
    ensures Parse(NewParser(), LeftPositionInput) == Err(UnexpectedParentheses)
  {
    LeftPositionLexes();
    LexedParse(LeftPositionInput, LeftPositionTokens);
    LeftPositionStops(Lexer(LeftPositionTokens, LeftPositionInput));
  }

  /** Tests.cpp, IncorrectRightBracePositionExcepts: the `)` in operand position is reported. */
  lemma IncorrectRightBracePositionExcepts()
    ensures Parse(NewParser(), RightPositionInput) == Err(UnexpectedToken(")"))
  {
    RightPositionLexes();
    LexedParse(RightPositionInput, RightPositionTokens);
    RightPositionFails(Lexer(RightPositionTokens, RightPositionInput));
  }

  const InvalidInput := "1 + 3 + test"

  /** Any input of valid characters followed by the word "test" reports the four letters. */
  lemma TrailingWordLexes(s: string, d: nat)
    requires SuffixAt(s, d, "test") && forall i :: 0 <= i < d ==> IsAllowedChar(s[i])
    ensures Lex(s) == Err(InvalidToken(["t", "e", "s", "t"]))
  {
    var word := "test";
    InvalidTail(s, d, word);
    assert s[d + 0] == word[0] && IsInvalidChar(word[0]);
    var r, expected := InvalidChars(s), ["t", "e", "s", "t"];
    assert r[0] == [word[0]] && r[1] == [word[1]] && r[2] == [word[2]] && r[3] == [word[3]];
    assert |r| == |word| == 4;
    assert forall k :: 0 <= k < 4 ==> r[k] == expected[k];
    assert r == expected;
  }

  /** Tests.cpp, InvalidExpressionLexerExcept: the four letters are reported, one entry each, before any parsing. */
  lemma InvalidExpressionLexerExcept()
    ensures Parse(NewParser(), InvalidInput) == Err(InvalidToken(["t", "e", "s", "t"]))
  {
    TrailingWordLexes(InvalidInput, 8);
  }
}

=== FILE: spelling.dfy ===
/**
 * Reading an input position by position as tokens separated by runs of
 * spaces. When every token is written out in full, at the place the
 * spacing says, the scanner produces exactly those tokens.
 */
module Spelling {
  import opened Outcomes
  import opened Chars
  import opened Tokens
  import opened Scanner

  /** s[lo..hi] is all spaces. */
  predicate Blank(s: string, lo: nat, hi: nat) {
    lo <= hi <= |s| && forall i :: lo <= i < hi ==> s[i] == ' '
  }

  /** `x` is written in `s` from index `from` on. */
  predicate TextAt(s: string, from: nat, x: string) {
    from + |x| <= |s| && forall i :: 0 <= i < |x| ==> s[from + i] == x[i]
  }

  /** A token the scanner builds from its own text. */
  predicate Rescans(t: Token) {
    IsLexemeText(t.raw) && Classify(t.raw) == t
  }

  /** Where the spelling of tokens[k] ends. */
  function EndOf(starts: seq<nat>, tokens: seq<Token>, k: nat): nat
    requires |starts| == |tokens| && k < |tokens|
  {
    starts[k] + |tokens[k].raw|
  }

  /** Where the characters after the first k tokens begin. */
  function After(starts: seq<nat>, tokens: seq<Token>, k: nat): nat
    requires |starts| == |tokens| && k <= |tokens|
  {
    if k == 0 then 0 else EndOf(starts, tokens, k - 1)
  }

  /** Where the next token, or the end of the input, begins. */
  function NextStart(s: string, starts: seq<nat>, k: nat): nat
    requires k <= |starts|
  {
    if k == |starts| then |s| else starts[k]
  }

  /** Each token is one the scanner builds from its text, and no two literals are written side by side. */
  predicate TokensFit(starts: seq<nat>, tokens: seq<Token>) {
    && |starts| == |tokens|
    && (forall k :: 0 <= k < |tokens| ==> Rescans(tokens[k]))
    && (forall k {:trigger EndOf(starts, tokens, k)} :: 0 <= k < |tokens| - 1 && tokens[k].operation == Literal == tokens[k + 1].operation ==> EndOf(starts, tokens, k) < starts[k + 1])
  }

  /** Each token's text is written in `s` at its start index. */
  predicate Written(s: string, starts: seq<nat>, tokens: seq<Token>)
    requires |starts| == |tokens|
  {
    forall k :: 0 <= k < |tokens| ==> TextAt(s, starts[k], tokens[k].raw)
  }

  /** Before the first token, between tokens and after the last, `s` holds only spaces. */
  predicate Spaced(s: string, starts: seq<nat>, tokens: seq<Token>)
    requires |starts| == |tokens|
  {
    forall k :: 0 <= k <= |tokens| ==> Blank(s, After(starts, tokens, k), NextStart(s, starts, k))
  }

  /** `s` is tokens[0], tokens[1], ... written out at the indices `starts`, with nothing but spaces around them. */
  predicate Spells(s: string, starts: seq<nat>, tokens: seq<Token>) {
    TokensFit(starts, tokens) && Written(s, starts, tokens) && Spaced(s, starts, tokens)
  }

  /** A lexeme cannot continue across index i: a digit run never straddles it. */
  predicate Boundary(s: string, i: nat)
    requires i <= |s|
  {
    i == 0 || i == |s| || !IsDigit(s[i - 1]) || !IsDigit(s[i])
  }

  lemma {:induction false} SkipSpaces(s: string, from: nat, hi: nat)
    requires Blank(s, from, hi) && Boundary(s, from)
    ensures Boundary(s, hi) && ScanFrom(s, hi) == ScanFrom(s, from)
    decreases hi - from
  {
    if from < hi {
      SkipSpaces(s, from + 1, hi);
    }
  }

  lemma {:induction false} RunAcross(s: string, p: nat, r: string, i: nat)
    requires TextAt(s, p, r) && AllDigits(r) && i <= |r|
    requires p + |r| == |s| || !IsDigit(s[p + |r|])
    ensures DigitRunEnd(s, p + i) == p + |r|
    decreases |r| - i
  {
    if i < |r| {
      assert s[p + i] == r[i];
      RunAcross(s, p, r, i + 1);
    }
  }

  /** One lexeme written at `p`, up to `q`, followed by a character that cannot extend it. */
  lemma ScanLexeme(s: string, p: nat, r: string, q: nat)
    requires TextAt(s, p, r) && IsLexemeText(r) && q == p + |r|
    requires Boundary(s, p)
    requires q == |s| || !IsDigit(s[q]) || !IsDigit(r[|r| - 1])
    ensures Boundary(s, q)
    ensures ScanFrom(s, p) == [Span(p, q)] + ScanFrom(s, q)
    ensures InString(s, Span(p, q)) && Slice(s, Span(p, q)) == r
  {
    assert s[p + 0] == r[0];
    assert s[p + |r| - 1] == r[|r| - 1];
    if IsDigit(r[0]) {
      RunAcross(s, p, r, 0);
    }
    assert s[p..q] == r;
  }

  /** Spaces from `from` to `p`, then a lexeme up to `q`. */
  lemma ScanSpacedLexeme(s: string, from: nat, p: nat, r: string, q: nat)
    requires Blank(s, from, p) && Boundary(s, from)
    requires TextAt(s, p, r) && IsLexemeText(r) && q == p + |r|
    requires q == |s| || !IsDigit(s[q]) || !IsDigit(r[|r| - 1])
    ensures Boundary(s, q)
    ensures ScanFrom(s, from) == [Span(p, q)] + ScanFrom(s, q)
    ensures InString(s, Span(p, q)) && Slice(s, Span(p, q)) == r
  {
    SkipSpaces(s, from, p);
    ScanLexeme(s, p, r, q);
  }

  /** The spans are the lexemes of tokens[k..], in order. */
  predicate Matches(s: string, spans: seq<Span>, tokens: seq<Token>, k: nat) {
    && k + |spans| == |tokens|
    && forall j :: 0 <= j < |spans| ==> InString(s, spans[j]) && Slice(s, spans[j]) == tokens[k + j].raw
  }

  lemma MatchesCons(s: string, sp: Span, rest: seq<Span>, tokens: seq<Token>, k: nat)
    requires InString(s, sp) && k < |tokens| && Slice(s, sp) == tokens[k].raw
    requires Matches(s, rest, tokens, k + 1)
    ensures Matches(s, [sp] + rest, tokens, k)
  {
    var spans := [sp] + rest;
    forall j | 0 < j < |spans| ensures InString(s, spans[j]) && Slice(s, spans[j]) == tokens[k + j].raw {
      assert spans[j] == rest[j - 1];
    }
  }

  /** What the spelling says about tokens[k]: spaces before it, its text at its start, and a boundary after it. */
  lemma TokenAt(s: string, starts: seq<nat>, tokens: seq<Token>, k: nat)
    requires Spells(s, starts, tokens) && k < |tokens|
    ensures Blank(s, After(starts, tokens, k), starts[k])
    ensures IsLexemeText(tokens[k].raw) && TextAt(s, starts[k], tokens[k].raw)
    ensures After(starts, tokens, k + 1) == starts[k] + |tokens[k].raw|
    ensures var q := After(starts, tokens, k + 1); q == |s| || !IsDigit(s[q]) || !IsDigit(tokens[k].raw[|tokens[k].raw| - 1])
  {
    assert Blank(s, After(starts, tokens, k), NextStart(s, starts, k));
    assert Rescans(tokens[k]) && TextAt(s, starts[k], tokens[k].raw);
    assert Blank(s, After(starts, tokens, k + 1), NextStart(s, starts, k + 1));
    var q := EndOf(starts, tokens, k);
    if q < |s| && k + 1 < |tokens| && starts[k + 1] == q {
      var r' := tokens[k + 1].raw;
      assert Rescans(tokens[k + 1]) && TextAt(s, starts[k + 1], r');
      assert s[q + 0] == r'[0];
    }
  }

  /** The scan after the first k tokens: one lexeme per remaining token, each with the token's text. */
  lemma {:induction false} ScanSpelled(s: string, starts: seq<nat>, tokens: seq<Token>, k: nat)
    requires Spells(s, starts, tokens) && k <= |tokens|
    requires After(starts, tokens, k) <= |s| && Boundary(s, After(starts, tokens, k))
    ensures Matches(s, ScanFrom(s, After(starts, tokens, k)), tokens, k)
    decreases |tokens| - k
  {
    var from := After(starts, tokens, k);
    if k < |tokens| {
      TokenAt(s, starts, tokens, k);
      var q := After(starts, tokens, k + 1);
      ScanSpacedLexeme(s, from, starts[k], tokens[k].raw, q);
      ScanSpelled(s, starts, tokens, k + 1);
      MatchesCons(s, Span(starts[k], q), ScanFrom(s, q), tokens, k);
    } else {
      assert Blank(s, from, NextStart(s, starts, k));
      SkipSpaces(s, from, |s|);
    }
  }

  /** The lexemes of a spelled input are the tokens' texts. */
  lemma SpelledLexemes(s: string, starts: seq<nat>, tokens: seq<Token>)
    requires Spells(s, starts, tokens)
    ensures Lexemes(s) == RawsOf(tokens)
  {
    assert After(starts, tokens, 0) == 0;
    ScanSpelled(s, starts, tokens, 0);
  }

  /** Up to the end of the first k tokens, a spelled input holds only spaces and token characters. */
  lemma {:induction false} AllowedUpTo(s: string, starts: seq<nat>, tokens: seq<Token>, k: nat)
    requires Spells(s, starts, tokens) && k <= |tokens|
    ensures After(starts, tokens, k) <= |s|
    ensures forall i :: 0 <= i < After(starts, tokens, k) ==> IsAllowedChar(s[i])
  {
    if k > 0 {
      AllowedUpTo(s, starts, tokens, k - 1);
      TokenAt(s, starts, tokens, k - 1);
      var p, r := starts[k - 1], tokens[k - 1].raw;
      forall i | After(starts, tokens, k - 1) <= i < After(starts, tokens, k) ensures IsAllowedChar(s[i]) {
        if p <= i {
          assert s[p + (i - p)] == r[i - p];
        }
      }
    }
  }

  /** A spelled input holds only spaces and token characters: the invalid-character search finds nothing. */
  lemma SpelledAllowed(s: string, starts: seq<nat>, tokens: seq<Token>)
    requires Spells(s, starts, tokens)
    ensures forall i :: 0 <= i < |s| ==> IsAllowedChar(s[i])
  {
    AllowedUpTo(s, starts, tokens, |tokens|);
    assert Blank(s, After(starts, tokens, |tokens|), NextStart(s, starts, |tokens|));
  }

  /** The scanner returns exactly the tokens an input spells. */
  lemma SpelledLex(s: string, starts: seq<nat>, tokens: seq<Token>)
    requires Spells(s, starts, tokens) && 0 < |tokens|
    ensures Lex(s) == Ok(tokens)
  {
    SpelledAllowed(s, starts, tokens);
    SpelledLexemes(s, starts, tokens);
    var raws := RawsOf(tokens);
    assert forall k :: 0 <= k < |raws| ==> Rescans(tokens[k]) && Classify(raws[k]) == tokens[k];
    assert Lex(s).Ok?;
    assert Lex(s).value == tokens;
  }
}

=== FILE: tokens.dfy ===
/** The token entity of the scanner (lexer.h:30-57). */
module Tokens {

  /** What a token stands for; `None` is only the placeholder a token starts with before it is classified. */
  datatype TokenOperation =
    | None
    | Literal
    | LeftParen
    | RightParen
    | Subtraction
    | Addition
    | Multiplication
    | Division

  /** The value carried by every token that is not a literal. */
  const NotApplicable: int := -1

  datatype Token = Token(operation: TokenOperation, value: int, raw: string)

  /** The four operators the binary level of the grammar folds. */
  predicate IsBinaryOperator(op: TokenOperation) {
    op == Addition || op == Subtraction || op == Multiplication || op == Division
  }

  /** Operations spelled by a single character. */
  predicate IsPunctuation(op: TokenOperation) {
    IsBinaryOperator(op) || op == LeftParen || op == RightParen
  }

  /** The character that spells a punctuation operation. */
  function OperatorChar(op: TokenOperation): char
    requires IsPunctuation(op)
  {
    match op
    case LeftParen => '('
    case RightParen => ')'
    case Subtraction => '-'
    case Addition => '+'
    case Multiplication => '*'
    case Division => '/'
  }
}

=== FILE: unparse.dfy ===
/**
 * A printer from trees back to tokens, the reference against which the
 * parser is checked: parsing the tokens of a tree gives the tree back. A
 * binary node prints its left child bare (the fold is left-associative)
 * and its right child as an operand, parenthesised when it is itself a
 * binary node.
 */
module Unparse {
  import opened Chars
  import opened Tokens
  import opened Scanner
  import opened Ast
  import opened RecursiveDescent

  /** The token of the decimal spelling of `v`. */
  function LiteralToken(v: nat): Token {
    Token(Literal, v, DecimalString(v))
  }

  /** The token of an operator character. */
  function PunctuationToken(op: TokenOperation): Token
    requires IsPunctuation(op)
  {
    Token(op, NotApplicable, [OperatorChar(op)])
  }

  /** The literal token is the one the scanner classifies the decimal spelling as. */
  lemma LiteralTokenScans(v: nat)
    ensures LiteralToken(v) == Classify(DecimalString(v))
  {
    DecimalRoundTrip(v);
  }

  /** The punctuation token is the one the scanner classifies the operator character as. */
  lemma PunctuationTokenScans(op: TokenOperation)
    requires IsPunctuation(op)
    ensures PunctuationToken(op) == Classify([OperatorChar(op)])
  {
  }

  predicate Printable(e: Expr) {
    WellFormed(e) && NonNegativeLiterals(e)
  }

  /** The tokens of `e` in operand position. */
  function OperandTokens(e: Expr): (ts: seq<Token>)
    requires Printable(e)
    ensures |ts| > 0
    decreases e, if e.BinaryNode? then 1 else 0
  {
    match e
    case LiteralNode(v) => [LiteralToken(v)]
    case UnaryNode(x) => [PunctuationToken(Subtraction)] + OperandTokens(x)
    case BinaryNode(_, _, _) => [PunctuationToken(LeftParen)] + ExprTokens(e) + [PunctuationToken(RightParen)]
  }

  /** The tokens of `e` as a whole expression. */
  function ExprTokens(e: Expr): (ts: seq<Token>)
    requires Printable(e)
    ensures |ts| > 0
    decreases e, if e.BinaryNode? then 0 else 1
  {
    match e
    case BinaryNode(op, l, r) => ExprTokens(l) + [PunctuationToken(op)] + OperandTokens(r)
    case _ => OperandTokens(e)
  }

  function Size(e: Expr): nat {
    match e
    case LiteralNode(_) => 1
    case UnaryNode(x) => 1 + Size(x)
    case BinaryNode(_, l, r) => 1 + Size(l) + Size(r)
  }

  /** The first operand of the left spine of `e`. */
  function Leftmost(e: Expr): (f: Expr)
    ensures Size(f) <= Size(e) && (e.BinaryNode? ==> Size(f) < Size(e))
  {
    match e
    case BinaryNode(_, l, _) => Leftmost(l)
    case _ => e
  }

  lemma {:induction false} LeftmostPrintable(e: Expr)
    requires Printable(e)
    ensures Printable(Leftmost(e)) && !Leftmost(e).BinaryNode?
  {
    if e.BinaryNode? {
      LeftmostPrintable(e.left);
    }
  }

  /** The printed tokens of an expression start with those of its first operand. */
  lemma {:induction false} LeftmostOccurs(ts: seq<Token>, pos: nat, e: Expr)
    requires ExpressionAt(ts, pos, e)
    ensures OperandAt(ts, pos, Leftmost(e))
    ensures |OperandTokens(Leftmost(e))| <= |ExprTokens(e)|
  {
    LeftmostPrintable(e);
    if e.BinaryNode? {
      var t := PunctuationToken(e.op);
      assert ExprTokens(e) == ExprTokens(e.left) + [t] + OperandTokens(e.right);
      OccursAround(ts, pos, ExprTokens(e.left), t, OperandTokens(e.right));
      LeftmostOccurs(ts, pos, e.left);
    }
  }

  /** The printed tokens of operand `e` occur in `ts` at `pos`. */
  predicate OperandAt(ts: seq<Token>, pos: nat, e: Expr) {
    Printable(e) && Occurs(ts, pos, OperandTokens(e))
  }

  /** The printed tokens of expression `e` occur in `ts` at `pos`. */
  predicate ExpressionAt(ts: seq<Token>, pos: nat, e: Expr) {
    Printable(e) && Occurs(ts, pos, ExprTokens(e))
  }

  /** `w` occurs in the token sequence at `pos`. */
  predicate Occurs(ts: seq<Token>, pos: nat, w: seq<Token>) {
    pos + |w| <= |ts| && forall i :: 0 <= i < |w| ==> ts[pos + i] == w[i]
  }

  lemma OccursSplit(ts: seq<Token>, pos: nat, a: seq<Token>, b: seq<Token>)
    requires Occurs(ts, pos, a + b)
    ensures Occurs(ts, pos, a) && Occurs(ts, pos + |a|, b)
  {
    forall i | 0 <= i < |a| ensures ts[pos + i] == a[i] {
      assert (a + b)[i] == a[i];
    }
    forall i | 0 <= i < |b| ensures ts[pos + |a| + i] == b[i] {
      assert (a + b)[|a| + i] == b[i];
    }
  }

  /** The pieces of an occurrence of `a + [t] + c`. */
  lemma OccursAround(ts: seq<Token>, pos: nat, a: seq<Token>, t: Token, c: seq<Token>)
    requires Occurs(ts, pos, a + [t] + c)
    ensures Occurs(ts, pos, a) && ts[pos + |a|] == t && Occurs(ts, pos + |a| + 1, c)
  {
    OccursSplit(ts, pos, a + [t], c);
    OccursSplit(ts, pos, a, [t]);
    assert ts[pos + |a| + 0] == [t][0];
  }

  /** The printed tokens of a binary node split into its left spine, its operator and its right operand. */
  lemma SplitBinary(ts: seq<Token>, pos: nat, e: Expr)
    requires e.BinaryNode? && ExpressionAt(ts, pos, e)
    ensures ExpressionAt(ts, pos, e.left)
    ensures |ExprTokens(e)| == |ExprTokens(e.left)| + 1 + |OperandTokens(e.right)|
    ensures pos + |ExprTokens(e.left)| < |ts| && ts[pos + |ExprTokens(e.left)|].operation == e.op
    ensures OperandAt(ts, pos + |ExprTokens(e.left)| + 1, e.right)
  {
    var t := PunctuationToken(e.op);
    assert ExprTokens(e) == ExprTokens(e.left) + [t] + OperandTokens(e.right);
    OccursAround(ts, pos, ExprTokens(e.left), t, OperandTokens(e.right));
  }

  /** Parsing an operand from its printed tokens consumes exactly them and gives the tree back. */
  lemma {:induction false} OperandRoundTrip(lx: Lexer, pos: nat, e: Expr)
    requires OperandAt(lx.tokens, pos, e)
    ensures ReadsOperand(lx, pos, e, pos + |OperandTokens(e)|)
    decreases Size(e), if e.BinaryNode? then 5 else 0
  {
    var ts := OperandTokens(e);
    assert lx.tokens[pos + 0] == ts[0];
    match e
    case LiteralNode(v) =>
      assert lx.tokens[pos] == LiteralToken(v);
      LiteralStep(lx, pos);
    case UnaryNode(x) =>
      assert ts == [PunctuationToken(Subtraction)] + OperandTokens(x);
      OccursSplit(lx.tokens, pos, [PunctuationToken(Subtraction)], OperandTokens(x));
      OperandRoundTrip(lx, pos + 1, x);
      NegationStep(lx, pos, x, pos + 1 + |OperandTokens(x)|);
    case BinaryNode(_, _, _) =>
      ParenthesesRoundTrip(lx, pos, e);
  }

  /** A binary tree in operand position is printed in parentheses and parsed back through them. */
  lemma {:induction false} ParenthesesRoundTrip(lx: Lexer, pos: nat, e: Expr)
    requires e.BinaryNode? && OperandAt(lx.tokens, pos, e)
    ensures ReadsOperand(lx, pos, e, pos + |OperandTokens(e)|)
    decreases Size(e), 4
  {
    var body := ExprTokens(e);
    var open := PunctuationToken(LeftParen);
    var close := PunctuationToken(RightParen);
    assert OperandTokens(e) == [] + [open] + (body + [close]);
    OccursAround(lx.tokens, pos, [], open, body + [close]);
    OccursSplit(lx.tokens, pos + 1, body, [close]);
    var q := pos + 1 + |body|;
    assert lx.tokens[q + 0] == [close][0];
    ExpressionRoundTrip(lx, pos + 1, e);
    ParenthesesStep(lx, pos, e, q);
  }

  /**
   * After the first operand of printed expression tokens, the loop folds
   * exactly the rest of the spine, left to right: continuing the loop from
   * the first operand is continuing it from the whole tree.
   */
  lemma {:induction false} SpineRoundTrip(lx: Lexer, pos: nat, e: Expr)
    requires ExpressionAt(lx.tokens, pos, e)
    ensures Printable(Leftmost(e))
    ensures FoldsAlike(lx, Leftmost(e), pos + |OperandTokens(Leftmost(e))|, e, pos + |ExprTokens(e)|)
    decreases Size(e), 2
  {
    if e.BinaryNode? {
      SpineTurn(lx, pos, e);
    } else {
      LeftmostPrintable(e);
      FoldStart(lx, e, pos + |ExprTokens(e)|);
    }
  }

  /** The spine of a binary node is the spine of its left child and one more turn of the loop. */
  lemma {:induction false} SpineTurn(lx: Lexer, pos: nat, e: Expr)
    requires e.BinaryNode? && ExpressionAt(lx.tokens, pos, e)
    ensures Printable(Leftmost(e))
    ensures FoldsAlike(lx, Leftmost(e), pos + |OperandTokens(Leftmost(e))|, e, pos + |ExprTokens(e)|)
    decreases Size(e), 1
  {
    assert Leftmost(e) == Leftmost(e.left);
    SplitBinary(lx.tokens, pos, e);
    SpineRoundTrip(lx, pos, e.left);
    SpineExtend(lx, e, Leftmost(e), pos + |OperandTokens(Leftmost(e))|, pos + |ExprTokens(e.left)|, pos + |ExprTokens(e)|);
  }

  /**
   * One more turn of the fold: if the loop from the first operand reaches
   * the left child at `q`, where the operator of `e` and the printed right
   * operand follow, it reaches `e` right after that operand.
   */
  lemma {:induction false} SpineExtend(lx: Lexer, e: Expr, first: Expr, p0: nat, q: nat, end: nat)
    requires Printable(e) && e.BinaryNode?
    requires q < |lx.tokens| && lx.tokens[q].operation == e.op
    requires OperandAt(lx.tokens, q + 1, e.right)
    requires FoldsAlike(lx, first, p0, e.left, q)
    requires end == q + 1 + |OperandTokens(e.right)|
    ensures FoldsAlike(lx, first, p0, e, end)
    decreases Size(e), 0
  {
    OperandRoundTrip(lx, q + 1, e.right);
    FoldStep(lx, first, p0, e, q, end);
  }

  /**
   * Parsing an expression from its printed tokens, followed by anything
   * that is not a binary operator, gives the tree back and stops right after.
   */
  lemma {:induction false} ExpressionRoundTrip(lx: Lexer, pos: nat, e: Expr)
    requires ExpressionAt(lx.tokens, pos, e)
    requires StopsAt(lx, pos + |ExprTokens(e)|)
    ensures ReadsExpression(lx, pos, e, pos + |ExprTokens(e)|)
    decreases Size(e), 3
  {
    FirstOperandRoundTrip(lx, pos, e);
    SpineRoundTrip(lx, pos, e);
    ExpressionStep(lx, pos, Leftmost(e), pos + |OperandTokens(Leftmost(e))|, e, pos + |ExprTokens(e)|);
  }

  /**
   * Parsing an expression from its printed tokens, followed by an operator
   * whose operand throws, throws that exception.
   */
  lemma ExpressionBreaksOff(lx: Lexer, pos: nat, e: Expr)
    requires ExpressionAt(lx.tokens, pos, e)
    requires BreaksOff(lx, pos + |ExprTokens(e)|)
    ensures ParseExpression(lx, pos) == ParseUnary(lx, pos + |ExprTokens(e)| + 1)
  {
    FirstOperandRoundTrip(lx, pos, e);
    SpineRoundTrip(lx, pos, e);
    FailureStep(lx, pos, Leftmost(e), pos + |OperandTokens(Leftmost(e))|, e, pos + |ExprTokens(e)|);
  }

  /** Parsing an operand at the start of printed expression tokens reads the first operand of the left spine. */
  lemma {:induction false} FirstOperandRoundTrip(lx: Lexer, pos: nat, e: Expr)
    requires ExpressionAt(lx.tokens, pos, e)
    ensures Printable(Leftmost(e))
    ensures ReadsOperand(lx, pos, Leftmost(e), pos + |OperandTokens(Leftmost(e))|)
    decreases Size(e), 1
  {
    LeftmostOccurs(lx.tokens, pos, e);
    LeftmostPrintable(e);
    OperandRoundTrip(lx, pos, Leftmost(e));
  }

  /**
   * The round trip for a whole token sequence: the printed tokens of a tree
   * parse back to that tree, with nothing left over, and the parser's
   * answer is the tree's value.
   */
  lemma PrintedTokensParse(lx: Lexer, e: Expr)
    requires Printable(e) && lx.tokens == ExprTokens(e)
    ensures ParseExpression(lx, 0) == Built(e, |lx.tokens|)
    ensures ParseTokens(lx) == Evaluate(e)
  {
    assert ExpressionAt(lx.tokens, 0, e) by {
      forall i | 0 <= i < |lx.tokens| ensures lx.tokens[0 + i] == ExprTokens(e)[i] {
      }
    }
    ExpressionRoundTrip(lx, 0, e);
  }
}
